=== FILE: README.md ===
# Append-blob output plugin: a Dafny model

This project models the pure core of the Fluentd output plugin
`out_oms_blob.rb`. The plugin turns buffered events into appends to Azure
append blobs, and the model covers five parts of it:

- **`write`** groups a flush's records by tag, in first-arrival order. Each
  group goes to `handle_records`, and the first exception ends the flush.
- **`handle_records`** splits the tag on periods into a container type, a
  data type, an optional custom type and an optional time-bucketed suffix.
- **`get_blob_uri`** builds the data-type id, the storage path from the default
  url-suffix template, and the URI request. The control plane's answer comes
  from an oracle.
- **`append_blob`** does four things in order:
  1. joins the messages as CRLF-terminated lines;
  2. cuts the text into blocks of at most 4,000,000 characters;
  3. reads the blob's committed block list, then uploads each block under a
     freshly drawn id;
  4. submits the committed ids followed by the new ids (`commit_blocks`).
- **`create_blob_put_request`** builds the headers.

Calls to the storage service and to the control plane become a trace of
operations (`Protocol.Op`). What the plugin cannot compute itself is supplied
by `Protocol.Services`:

- the blob URI the control plane returns;
- the `n`-th block id drawn;
- whether the transport delivers a call.

The storage service is modelled abstractly (`Storage`). A blob is a list of
committed blocks plus a map of staged blocks:

- Put Block stages a block.
- Put Block List replaces the committed list by the blocks it names, and drops
  the remaining staged blocks.

This abstraction is what lets the model state the end-to-end promise: an append
makes the blob's content its old content followed by the assembled payload.

Modules follow the program's structure:

| module | contents |
|---|---|
| `Types` | shared value types |
| `Text` | Ruby string operations: `split`, `join`, `to_s`, zero padding, `bytesize` |
| `Payload` | payload assembly and chunking |
| `BlockList` | the block-list document |
| `Requests` | request targets and headers |
| `Routing` | tag classification |
| `BlobUri` | the data-type id, the url-suffix template and the request |
| `Storage` | the storage service |
| `Protocol` | the storage calls of one append |
| `Plugin` | grouping and dispatch |

Where the code and its own comments disagree, the model follows the code:

- **The custom branch tests characters, not segments.** Line 211 tests
  `tag.size >= 6`, the tag's character count; the comment says six segments.
  - A four-segment tag of six or more characters takes the custom branch and
    raises on the missing fifth segment.
  - A five-segment tag of six or more characters gets a suffix that is the
    time prefix without its final slash. A shorter five-segment tag (such as
    `....e`) gets no custom type and fails on it.
  - `Routing.ClassifyTagBySegments` models the reading the comments describe.
    It is proved to agree with the code from six segments on.
- **The time prefix is `d=YYYYMMDD/h=HH/`** (line 218).
- **Short tags fall through.** A tag of fewer than four segments only logs at
  line 227 and carries on with nil fields. The default template then raises on
  the nil custom type (`Error.NilCustomType`).
- **The default template uses the custom type, not the composite data-type id**
  (line 30).

## Model

| member | source | states |
|---|---|---|
| Text.Interpolated | source/code/plugins/out_oms_blob.rb:89 | `"#{x}"` and `to_s` of a string or nil: nil reads as the empty string (also line 123) |
| Text.RubySplit | source/code/plugins/out_oms_blob.rb:200 | `split('.')`: the period-separated fields with the trailing empty ones dropped; every field is dot-free and the last is not empty |
| Text.NatToString | source/code/plugins/out_oms_blob.rb:71 | `Integer#to_s`: at least one digit, all digits, no leading zero |
| Text.Utf8Size | source/code/plugins/out_oms_blob.rb:71 | `bytesize`: one to four bytes per character by code point; bounds in `Text.Utf8SizeBounds` |
| Text.RubySplitJoin | source/code/plugins/out_oms_blob.rb:200 | `split('.')` inverts joining with periods, for dot-free fields whose last field is not empty |
| Text.JoinSplitAll | source/code/plugins/out_oms_blob.rb:200 | joining the period-separated fields of a string, empty fields included, gives the string back |
| Text.SegmentsAtMostLength | source/code/plugins/out_oms_blob.rb:200-211 | `split('.')` never yields more segments than the tag has characters, so the character test on line 211 follows from six segments |
| Text.DecimalValueOfNatToString | source/code/plugins/out_oms_blob.rb:71 | `Integer#to_s` gives a decimal numeral that reads back as the number |
| Text.ZeroPad | source/code/plugins/out_oms_blob.rb:218 | a zero-padded field is all digits, at least the requested width, and reads back as the number |
| Text.Utf8SizeBounds | source/code/plugins/out_oms_blob.rb:71 | `bytesize` is between one and four bytes per character, and equals the character count exactly when every character is ASCII |
| Payload.Frame | source/code/plugins/out_oms_blob.rb:123 | one message's share of the payload: its text and CRLF when the text is not empty, nothing otherwise |
| Payload.Assemble | source/code/plugins/out_oms_blob.rb:121-123 | the frames of the messages in input order; characterised by `Payload.AssembleIsTerminatedLines` |
| Payload.AssembleIsTerminatedLines | source/code/plugins/out_oms_blob.rb:121-123 | the payload is every non-empty message, in input order, each followed by CRLF; missing or empty messages contribute nothing |
| Payload.AssembleAppend | source/code/plugins/out_oms_blob.rb:121-123 | assembling two batches in turn gives the two payloads in turn |
| Payload.Chunks | source/code/plugins/out_oms_blob.rb:129-135 | every block is non-empty and at most 4,000,000 characters, every block but the last is full, and the blocks concatenate back to the payload |
| Payload.ChunkCount | source/code/plugins/out_oms_blob.rb:129-135 | the number of blocks is ceil(length / 4,000,000) |
| Payload.ChunksUnique | source/code/plugins/out_oms_blob.rb:129-135 | any cut into non-empty pieces that concatenate to the payload, with every piece but the last full, is the loop's cut |
| Payload.ChunkBytesCanExceedChunkSize | source/code/plugins/out_oms_blob.rb:129-133 | a full block of two-byte characters is 8,000,000 bytes: the limit counts characters, not bytes |
| Payload.ChunkByteBounds | source/code/plugins/out_oms_blob.rb:71 | each block's byte size lies between its character count and 16,000,000 |
| BlockList.BlockListDoc | source/code/plugins/out_oms_blob.rb:182-185 | one Committed entry per committed id in order, then one Uncommitted entry per new id in order, and nothing else |
| BlockList.DocIds | source/code/plugins/out_oms_blob.rb:182-185 | the list names exactly the committed ids followed by the new ids: nothing dropped, duplicated or reordered |
| BlockList.PartitionInvertsDoc | source/code/plugins/out_oms_blob.rb:182-185 | in a built list every committed entry precedes every new one, and splitting it by tag recovers both inputs |
| BlockList.DocOfPartition | source/code/plugins/out_oms_blob.rb:182-185 | conversely, every list with its committed entries first is the list built from its two parts |
| Requests.BlockListTarget | source/code/plugins/out_oms_blob.rb:147 | the block-list address is the blob URI followed by `&comp=blocklist` |
| Requests.BlockTarget | source/code/plugins/out_oms_blob.rb:167 | a block's address starts with the blob URI and ends with the block id |
| Requests.BlobPutRequest | source/code/plugins/out_oms_blob.rb:68-76 | the PUT carries the given target and body, the octet-stream content type and a Content-Length |
| Requests.ContentLengthIsByteCount | source/code/plugins/out_oms_blob.rb:71 | Content-Length is the decimal numeral of the body's UTF-8 byte count, between its character count and four times that |
| Requests.BlockPutRequest | source/code/plugins/out_oms_blob.rb:165-171 | a block upload puts the chunk as the body at the block's address, as an octet stream with a Content-Length |
| Routing.TimePrefix | source/code/plugins/out_oms_blob.rb:218 | the prefix starts with `d=`, ends with a slash and has at least 16 characters |
| Routing.TimePrefixLayout | source/code/plugins/out_oms_blob.rb:218 | for a clock reading in range the prefix is 16 characters, `d=` + 8 digits + `/h=` + 2 digits + `/`, and the year, month, day and hour read back from it |
| Routing.SuffixAsWritten | source/code/plugins/out_oms_blob.rb:218-221 | the prefix, each remaining segment followed by a period, then the last character dropped; characterised by `Routing.SuffixAsWrittenSpec` |
| Routing.SuffixAsWrittenSpec | source/code/plugins/out_oms_blob.rb:218-221 | with remaining segments the suffix is the prefix followed by the segments joined with periods; with none, the prefix loses its own final slash |
| Routing.ClassifyTag | source/code/plugins/out_oms_blob.rb:200-228 | the classifier as written, branch for branch; characterised by `Routing.ClassifyTagSpec` |
| Routing.ClassifyTagSpec | source/code/plugins/out_oms_blob.rb:200-228 | what each segment count and tag length yields: the error exactly for four segments and six or more characters, nils below four segments, segments 3 and 4 as container and data type, and the custom type and suffix exactly in the custom branch |
| Routing.ClassifyTagBySegments | source/code/plugins/out_oms_blob.rb:202-217 | the reading the comments describe: below four segments is an error, and a custom type comes exactly from six segments |
| Routing.ClassifyAgreesFromSixSegments | source/code/plugins/out_oms_blob.rb:200-221 | the code and the comments' reading classify every tag of six or more segments alike |
| Routing.FourSegmentTagFails | source/code/plugins/out_oms_blob.rb:211-219 | every tag of four non-empty segments takes the custom branch and fails on the missing fifth segment, where the comments' reading gives container and data type |
| Routing.FiveSegmentSuffixLosesSlash | source/code/plugins/out_oms_blob.rb:211-221 | a tag of five non-empty segments gets its fifth segment as custom type and the time prefix without its slash as suffix |
| Routing.CustomLogTag | source/code/plugins/out_oms_blob.rb:200-221 | a tag of six or more dot-free segments yields segments 3, 4 and 5 and the time prefix followed by segments 6 onward joined with periods |
| Routing.ShortTagFallsThrough | source/code/plugins/out_oms_blob.rb:201-228 | a tag of fewer than four segments yields four nils, where the comments' reading reports an error |
| BlobUri.DataTypeId | source/code/plugins/out_oms_blob.rb:87-90 | the data type alone without a custom type; otherwise one character longer than the data type and custom type together |
| BlobUri.CompositeIdLayout | source/code/plugins/out_oms_blob.rb:87-90 | in a composite id over a dot-free data type the first period ends the data type and the custom type follows it |
| BlobUri.DataTypeIdInjective | source/code/plugins/out_oms_blob.rb:87-90 | distinct (data type, custom type) pairs never share an id |
| BlobUri.UrlSuffix | source/code/plugins/out_oms_blob.rb:30 | the default template fails exactly when the custom type or the suffix is nil, each with its own error |
| BlobUri.UrlSuffixInjective | source/code/plugins/out_oms_blob.rb:30 | for fixed host and agent, a slash-free custom type and the suffix are both recovered from the storage path |
| BlobUri.DefaultExpiryRequest | source/code/plugins/out_oms_blob.rb:29 | with `blob_uri_expiry` at its default, every request built asks for an expiry of `00:10:00` |
| BlobUri.BuildUriRequest | source/code/plugins/out_oms_blob.rb:86-99 | the request fails exactly when the template does; otherwise it carries the container type, the composite id, the configured expiry and the evaluated template |
| BlobUri.RequestDeterminesClassification | source/code/plugins/out_oms_blob.rb:86-99 | two classifications that lead to the same request are equal |
| Storage.StageBlock | source/code/plugins/out_oms_blob.rb:165-174 | Put Block stages data under an id and changes neither the committed list nor any other blob |
| Storage.CommitBlockList | source/code/plugins/out_oms_blob.rb:182-193 | Put Block List changes no other blob |
| Storage.CommitAppendsStaged | source/code/plugins/out_oms_blob.rb:182-193 | submitting the committed ids and then staged ids keeps the committed blocks and appends the staged ones in list order |
| Protocol.IdsFrom | source/code/plugins/out_oms_blob.rb:166 | the `k`-th id is the oracle's draw `from + k` |
| Protocol.UploadChunks | source/code/plugins/out_oms_blob.rb:131-135 | one Put Block per chunk in order, each under its id, stopping at the first failure; every upload before it was accepted and a failure is the upload the transport refused; failure exactly when fewer chunks were uploaded than given |
| Protocol.UploadKeepsCommitted | source/code/plugins/out_oms_blob.rb:131-135 | uploading changes no committed list and no other blob |
| Protocol.UploadAndCommit | source/code/plugins/out_oms_blob.rb:131-138 | on success one upload per chunk with consecutive ids, then the block list of the given committed ids followed by the new ids; a refused call is the last one made and fails the run, so no block list follows a refused upload; success means every call was accepted; any failure is a transport error that leaves the committed list alone |
| Protocol.AppendBlob | source/code/plugins/out_oms_blob.rb:116-139 | an empty batch makes no call; otherwise the block-list read comes first, then one upload per chunk, then the commit of the committed ids followed by one new id per chunk; a refused call is the last one made and fails the append, and success means every call was accepted |
| Protocol.UploadAndCommitAttempts | source/code/plugins/out_oms_blob.rb:131-138 | whatever the outcome, the uploads made are the first chunks in order under their drawn ids; a run stopped at an upload has drawn one id per upload attempted; a run that reaches the commit submits the committed ids followed by every new id, having drawn one id per chunk |
| Protocol.BlockListAddress | source/code/plugins/out_oms_blob.rb:189 | a block-list call, the read at line 147 as well as the commit, goes to the blob URI followed by `&comp=blocklist` |
| Protocol.AppendBlobBlockListAddresses | source/code/plugins/out_oms_blob.rb:126-138 | an append reads the committed list from, and a completed append commits to, the block-list address of the blob it appends to |
| Protocol.AppendBlobUploadRequests | source/code/plugins/out_oms_blob.rb:131-133 | every upload of a completed append is a PUT of its chunk to the block's address whose Content-Length is the decimal numeral of the chunk's UTF-8 byte count, at most 16,000,000 |
| Protocol.UploadStages | source/code/plugins/out_oms_blob.rb:131-135 | with a reliable transport and distinct ids every chunk ends up staged under its own id |
| Protocol.StagedSurvives | source/code/plugins/out_oms_blob.rb:131-135 | a staged block whose id the later uploads do not use keeps its data |
| Protocol.AcceptedFirst | source/code/plugins/out_oms_blob.rb:126-138 | an accepted block-list read in front of an upload-and-commit run keeps the rule that a refused call is the last one and fails the run |
| Protocol.UploadAndCommitExtends | source/code/plugins/out_oms_blob.rb:131-138 | with a reliable transport and never-repeating ids, the committed list becomes the old one followed by one new block per chunk |
| Protocol.AppendBlobAppends | source/code/plugins/out_oms_blob.rb:116-139 | the append round trip: the blob's content becomes its old content followed by the assembled payload, and the blob stays consistent with the ids still to be drawn still fresh |
| Protocol.AppendsCompose | source/code/plugins/out_oms_blob.rb:116-139 | two appends in turn leave the same content as one append of both batches |
| Plugin.AddRecord | source/code/plugins/out_oms_blob.rb:261-264 | one record appended to its tag's group, or a new group at the end for a tag not seen before; characterised by `Plugin.AddRecordGroups` |
| Plugin.GroupByTag | source/code/plugins/out_oms_blob.rb:259-265 | the records folded in arrival order into insertion-ordered groups; characterised by `Plugin.GroupByTagGroups` |
| Plugin.GroupByTagGroups | source/code/plugins/out_oms_blob.rb:259-265 | grouping yields one group per distinct tag, in first-arrival order, each holding exactly its tag's messages in arrival order |
| Plugin.AddRecordGroups | source/code/plugins/out_oms_blob.rb:261-264 | adding one record to a correct grouping gives the correct grouping of the longer list |
| Plugin.HandleRecords | source/code/plugins/out_oms_blob.rb:199-240 | tags of fewer than four segments or fewer than six characters fail on the nil custom type without a call; four segments and six characters fail on the missing segment; a failed classification or template fails with that error and makes no call; otherwise the first call is the URI request built from the tag's classification, no URI fails the batch after that one call, and a resolved URI continues exactly as `append_blob` of the messages to it; a failure leaves every committed list alone |
| Plugin.HandleGroups | source/code/plugins/out_oms_blob.rb:267-269 | the groups dispatched are a prefix of the groups in order; all of them when nothing fails; the run at position `k` is `handle_records` of group `k` at clock reading `first + k` on the world the previous run left; every run but the last succeeded; the calls made are the runs' calls in order, and the final world and error are the last run's |
| Plugin.HandledFirst | source/code/plugins/out_oms_blob.rb:267-269 | for any per-group handler, a successful first group followed by the rest run in turn is the whole list run in turn |
| Plugin.RunOfGroup | source/code/plugins/out_oms_blob.rb:267-269 | in a flush handled in turn, run `k` is `handle_records` of group `k` with its own clock reading and the previous run's world |
| Plugin.Write | source/code/plugins/out_oms_blob.rb:252-270 | without a configuration nothing is sent; otherwise the tags dispatched are a prefix of the grouping's tags, and the groups are handled in turn from position 0 |
| Plugin.WriteDispatchesEachTagOnce | source/code/plugins/out_oms_blob.rb:259-269 | a flush that completes hands every distinct tag over exactly once, in the order the tags first arrived |
| Plugin.CustomLogGroupAppends | source/code/plugins/out_oms_blob.rb:199-240 | end to end for a custom-log tag: the request names container, `data.custom` and the time-bucketed path, and the blob's content grows by exactly the group's payload |

## Left out

- HTTP, TLS and proxy handling (`create_secure_http`, `create_ods_http`,
  `start_request`) are foreign calls. They are modelled only as the `accepts`
  oracle deciding whether a call is delivered.
- The control-plane exchange of `get_blob_uri` (lines 100-109) is left out:
  the ODS request, JSON parsing and BOM removal. It is the `resolve` oracle
  from request to blob URI.
- REXML is left out. The block list is a sequence of entries rather than XML
  text, so the commit body's Content-Length is not modelled.
- Parsing of the block list that `get_committed_blocks` reads is left out.
  The committed ids are read directly from the modelled blob, and a missing
  blob reads as an empty list.
- The extra `true` argument that `get_committed_blocks` passes to
  `start_request` (line 150) is not modelled. `oms_common.rb`, which gives it
  its meaning, is not part of this model.
- `create_blob_get_request` is represented only by the `GetBlockList`
  operation and its address `Protocol.BlockListAddress`, because it only wraps the URI.
- `eval(url_suffix_template)` is left out for arbitrary templates. Only the
  default template of line 30 is modelled, with host name and agent id as
  settings.
- Block ids from `SecureRandom.uuid` and `Base64.encode64` are an oracle of
  numbered draws. Uniqueness and freshness are assumptions of the round-trip
  lemmas (`Protocol.UniqueIds`, `Protocol.FreshAt`), not proved.
  - All ids of an append are drawn up front. The oracle is indexed by draw
    number, so this gives the same ids as drawing each inside the loop.
- The clock is an input: `Plugin.Write` takes a function from a group's
  position in the flush to the UTC reading `handle_records` takes for it
  (line 218 reads `Time.now.utc` once per call). That successive readings never
  decrease is not modelled. Logging and timing are left out.
- Loading the configuration is a boolean parameter of `Plugin.Write`.
- Msgpack buffering (`format`, `msgpack_each`) and the Fluentd lifecycle are
  left out. A flush is a sequence of (tag, message) records.
- The storage service's behaviour (`Storage`) is an abstraction of Put Block
  and Put Block List. It is assumed, not derived from the plugin's code.
- A rejected Put Block List is modelled as leaving the blob unchanged, with no
  partial commit. This is an assumption about the service.
- Messages are nil or strings. A numeric or hash `message` would contribute
  its `to_s` text at line 123; non-string messages are not modelled.
- Strings are sequences of Unicode scalar values whose byte size is their UTF-8
  size. A binary-encoded (ASCII-8BIT) message, for which `length` and
  `slice!` (lines 132-133) count bytes, is not modelled; the 4,000,000 limit is
  a character limit throughout.
- Concurrent writers are not modelled. The committed list read at line 126 is
  resubmitted at line 138 with no concurrency control, so another writer's
  commit in between would be overwritten. `Protocol.AppendBlobAppends` and
  `Protocol.AppendsCompose` assume no other writer touches the blob between the
  block-list read and the commit.
- Base64 ids carry the trailing newline `encode64` appends. Ids are opaque
  strings here, so that newline is not modelled.

=== FILE: bloburi.dfy ===
/** The control-plane request of `get_blob_uri`: the composite data-type id,
    the storage-path suffix of the default `url_suffix_template`, and the
    request record. */
module BlobUri {
  import opened Types
  import opened Text
  import Routing

  /** Default of `blob_uri_expiry`. */
  const DefaultExpiry: string := "00:10:00"

  /** The fixed path segment of the default url-suffix template. */
  const TemplateGuid: string := "/00000000-0000-0000-0000-000000000002/"

  /** The configuration and host facts the template reads. */
  datatype Settings = Settings(expiry: string, hostname: string, agentId: string)

  /** The settings with `blob_uri_expiry` left at its default. */
  function DefaultSettings(hostname: string, agentId: string): Settings
  {
    Settings(DefaultExpiry, hostname, agentId)
  }

  /** The request body: ContainerType, DataTypeId, ExpiryDuration and Suffix. */
  datatype UriRequest = UriRequest(
    containerType: Option<string>,
    dataTypeId: Option<string>,
    expiryDuration: string,
    suffix: string)

  /** `data_type`, or `"#{data_type}.#{custom_data_type}"` when a custom type is given. */
  function DataTypeId(dataType: Option<string>, customType: Option<string>): (id: Option<string>)
    ensures customType.None? ==> id == dataType
    ensures customType.Some? ==> id.Some? && |id.value| == |Interpolated(dataType)| + 1 + |customType.value|
  {
    match customType
    case None => dataType
    case Some(c) => Some(Interpolated(dataType) + "." + c)
  }

  /** Position of the first `ch` in `s`, or `|s|` when there is none. */
  function IndexOfChar(s: string, ch: char): (i: nat)
    ensures i <= |s|
    ensures forall j :: 0 <= j < i ==> s[j] != ch
    ensures i < |s| ==> s[i] == ch
  {
    if |s| == 0 then 0 else if s[0] == ch then 0 else 1 + IndexOfChar(s[1..], ch)
  }

  lemma {:induction false} IndexOfCharAfter(prefix: string, ch: char, rest: string)
    requires forall j :: 0 <= j < |prefix| ==> prefix[j] != ch
    requires |rest| == 0 || rest[0] == ch
    ensures IndexOfChar(prefix + rest, ch) == |prefix|
    decreases |prefix|
  {
    var s := prefix + rest;
    if |prefix| > 0 {
      assert s[1..] == prefix[1..] + rest;
      IndexOfCharAfter(prefix[1..], ch, rest);
    } else {
      assert s == rest;
    }
  }

  /** In a composite id over a dot-free data type, the first period ends the data type. */
  lemma CompositeIdLayout(d: string, c: Option<string>)
    requires NoDot(d)
    ensures var id := DataTypeId(Some(d), c).value;
            && IndexOfChar(id, '.') == |d|
            && id[..|d|] == d
            && (c.None? <==> |id| == |d|)
            && (c.Some? ==> id[|d| + 1..] == c.value)
  {
    match c
    case None =>
      IndexOfCharAfter(d, '.', "");
      assert d + "" == d;
    case Some(v) =>
      IndexOfCharAfter(d, '.', "." + v);
      assert d + "." + v == d + ("." + v);
  }

  /** A dot-free data type determines the composite id and is recovered from it:
      distinct (data type, custom type) pairs never share an id. */
  lemma DataTypeIdInjective(d1: string, c1: Option<string>, d2: string, c2: Option<string>)
    requires NoDot(d1) && NoDot(d2)
    requires DataTypeId(Some(d1), c1) == DataTypeId(Some(d2), c2)
    ensures d1 == d2 && c1 == c2
  {
    CompositeIdLayout(d1, c1);
    CompositeIdLayout(d2, c2);
  }

  /** The default `url_suffix_template` evaluated: custom type, the fixed GUID
      segment, host name, agent id, then the suffix with ".log". A nil custom
      type or nil suffix makes the `+` raise. */
  function UrlSuffix(customType: Option<string>, suffix: Option<string>, s: Settings): (r: Result<string>)
    ensures r.Err? <==> customType.None? || suffix.None?
    ensures customType.None? ==> r == Err(NilCustomType)
    ensures customType.Some? && suffix.None? ==> r == Err(NilSuffix)
  {
    match customType
    case None => Err(NilCustomType)
    case Some(c) =>
      match suffix
      case None => Err(NilSuffix)
      case Some(x) => Ok(c + TemplateGuid + s.hostname + "/" + s.agentId + "/" + x + ".log")
  }

  predicate NoSlash(s: string)
  {
    forall i :: 0 <= i < |s| ==> s[i] != '/'
  }

  /** For fixed settings, a slash-free custom type and the suffix are both
      recovered from the evaluated template: two different classifications never
      share a storage path. */
  lemma UrlSuffixInjective(c1: string, x1: string, c2: string, x2: string, s: Settings)
    requires NoSlash(c1) && NoSlash(c2)
    requires UrlSuffix(Some(c1), Some(x1), s) == UrlSuffix(Some(c2), Some(x2), s)
    ensures c1 == c2 && x1 == x2
  {
    var tail := TemplateGuid + s.hostname + "/" + s.agentId + "/";
    var e1, e2 := x1 + ".log", x2 + ".log";
    var t1, t2 := tail + e1, tail + e2;
    TemplateShape(c1, x1, s);
    TemplateShape(c2, x2, s);
    assert t1[0] == '/' && t2[0] == '/';
    IndexOfCharAfter(c1, '/', t1);
    IndexOfCharAfter(c2, '/', t2);
    SplitAtSameLength(c1, t1, c2, t2);
    SplitAtSameLength(tail, e1, tail, e2);
    SplitAtSameLength(x1, ".log", x2, ".log");
  }

  /** The evaluated template regrouped as custom type, fixed middle, then suffix. */
  lemma TemplateShape(c: string, x: string, s: Settings)
    ensures UrlSuffix(Some(c), Some(x), s).value
            == c + ((TemplateGuid + s.hostname + "/" + s.agentId + "/") + (x + ".log"))
  {
    var tail := TemplateGuid + s.hostname + "/" + s.agentId + "/";
    assert c + TemplateGuid + s.hostname + "/" + s.agentId + "/" == c + tail;
    assert c + tail + x + ".log" == c + (tail + (x + ".log"));
  }

  /** Two equal concatenations whose first parts have equal lengths agree part by part. */
  lemma SplitAtSameLength(a1: string, b1: string, a2: string, b2: string)
    requires a1 + b1 == a2 + b2 && |a1| == |a2|
    ensures a1 == a2 && b1 == b2
  {
    assert a1 == (a1 + b1)[..|a1|];
    assert a2 == (a2 + b2)[..|a2|];
    assert b1 == (a1 + b1)[|a1|..];
    assert b2 == (a2 + b2)[|a2|..];
  }

  /** Lines 86-99: the id and the suffix, then the request record. */
  function BuildUriRequest(key: Routing.Classification, s: Settings): (r: Result<UriRequest>)
    ensures r.Err? <==> key.customType.None? || key.suffix.None?
    ensures r.Ok? ==> (&& r.value.containerType == key.containerType
                       && r.value.dataTypeId == Some(Interpolated(key.dataType) + "." + key.customType.value)
                       && r.value.expiryDuration == s.expiry
                       && r.value.suffix == UrlSuffix(key.customType, key.suffix, s).value)
  {
    var id := DataTypeId(key.dataType, key.customType);
    match UrlSuffix(key.customType, key.suffix, s)
    case Err(e) => Err(e)
    case Ok(suffix) => Ok(UriRequest(key.containerType, id, s.expiry, suffix))
  }

  /** With the default template, only a classification that has both a custom
      type and a suffix can be resolved; the request then determines the whole
      classification (given a dot-free data type and a slash-free custom type). */
  lemma RequestDeterminesClassification(k1: Routing.Classification, k2: Routing.Classification, s: Settings)
    requires k1.dataType.Some? && NoDot(k1.dataType.value) && k2.dataType.Some? && NoDot(k2.dataType.value)
    requires k1.customType.Some? ==> NoSlash(k1.customType.value)
    requires k2.customType.Some? ==> NoSlash(k2.customType.value)
    requires BuildUriRequest(k1, s).Ok? && BuildUriRequest(k1, s) == BuildUriRequest(k2, s)
    ensures k1 == k2
  {
    var r := BuildUriRequest(k1, s).value;
    DataTypeIdInjective(k1.dataType.value, k1.customType, k2.dataType.value, k2.customType);
    UrlSuffixInjective(k1.customType.value, k1.suffix.value, k2.customType.value, k2.suffix.value, s);
  }

  /** With `blob_uri_expiry` at its default, every URI request asks for a
      blob URI valid for ten minutes. */
  lemma DefaultExpiryRequest(k: Routing.Classification, hostname: string, agentId: string)
    ensures BuildUriRequest(k, DefaultSettings(hostname, agentId)).Ok? ==>
              BuildUriRequest(k, DefaultSettings(hostname, agentId)).value.expiryDuration == "00:10:00"
  {
  }
}

=== FILE: blocklist.dfy ===
/** The block list `commit_blocks` submits, as a sequence of tagged entries
    rather than XML text. */
module BlockList {

  /** Block ids are opaque strings (base64 text in the plugin). */
  type BlockId = string

  datatype Entry = Committed(id: BlockId) | Uncommitted(id: BlockId)

  /** One `<Committed>` element per already-committed id, then one `<Uncommitted>`
      element per freshly uploaded id, each group in the order given. */
  function BlockListDoc(committed: seq<BlockId>, uncommitted: seq<BlockId>): (doc: seq<Entry>)
    ensures |doc| == |committed| + |uncommitted|
    ensures forall i :: 0 <= i < |committed| ==> doc[i] == Committed(committed[i])
    ensures forall j :: 0 <= j < |uncommitted| ==> doc[|committed| + j] == Uncommitted(uncommitted[j])
  {
    seq(|committed|, i requires 0 <= i < |committed| => Committed(committed[i]))
      + seq(|uncommitted|, j requires 0 <= j < |uncommitted| => Uncommitted(uncommitted[j]))
  }

  /** The ids a block list names, in document order. */
  function Ids(doc: seq<Entry>): (ids: seq<BlockId>)
    ensures |ids| == |doc|
    ensures forall i :: 0 <= i < |doc| ==> ids[i] == doc[i].id
  {
    if |doc| == 0 then [] else [doc[0].id] + Ids(doc[1..])
  }

  /** No committed entry follows an uncommitted one. */
  predicate CommittedFirst(doc: seq<Entry>)
  {
    forall i, j :: 0 <= i < j < |doc| && doc[i].Uncommitted? ==> doc[j].Uncommitted?
  }

  /** The committed ids and the uncommitted ids of a block list, each in document order. */
  function Partition(doc: seq<Entry>): (seq<BlockId>, seq<BlockId>)
  {
    if |doc| == 0 then ([], [])
    else
      var (c, u) := Partition(doc[1..]);
      match doc[0]
      case Committed(id) => ([id] + c, u)
      case Uncommitted(id) => (c, [id] + u)
  }

  /** The submitted list names exactly the committed ids followed by the uploaded
      ids: nothing dropped, duplicated or reordered. */
  lemma DocIds(committed: seq<BlockId>, uncommitted: seq<BlockId>)
    ensures Ids(BlockListDoc(committed, uncommitted)) == committed + uncommitted
  {
  }

  /** A built block list keeps every committed entry ahead of every new one, and
      splitting it by tag recovers both inputs. */
  lemma PartitionInvertsDoc(committed: seq<BlockId>, uncommitted: seq<BlockId>)
    ensures CommittedFirst(BlockListDoc(committed, uncommitted))
    ensures Partition(BlockListDoc(committed, uncommitted)) == (committed, uncommitted)
  {
    PartitionOfDoc(committed, uncommitted);
  }

  /** Dropping the first entry of a built list drops the first id it came from. */
  lemma DocTail(committed: seq<BlockId>, uncommitted: seq<BlockId>)
    requires |committed| + |uncommitted| > 0
    ensures |committed| > 0 ==> BlockListDoc(committed, uncommitted)[1..] == BlockListDoc(committed[1..], uncommitted)
    ensures |committed| == 0 ==> BlockListDoc(committed, uncommitted)[1..] == BlockListDoc(committed, uncommitted[1..])
  {
    var doc := BlockListDoc(committed, uncommitted);
    if |committed| > 0 {
      var tail := BlockListDoc(committed[1..], uncommitted);
      assert forall i :: 0 <= i < |tail| ==> doc[1..][i] == tail[i];
    } else {
      var tail := BlockListDoc(committed, uncommitted[1..]);
      assert forall i :: 0 <= i < |tail| ==> doc[1..][i] == tail[i];
    }
  }

  lemma {:induction false} PartitionOfDoc(committed: seq<BlockId>, uncommitted: seq<BlockId>)
    ensures Partition(BlockListDoc(committed, uncommitted)) == (committed, uncommitted)
    decreases |committed| + |uncommitted|
  {
    var doc := BlockListDoc(committed, uncommitted);
    if |committed| > 0 {
      DocTail(committed, uncommitted);
      PartitionOfDoc(committed[1..], uncommitted);
      assert doc[0] == Committed(committed[0]);
      assert committed == [committed[0]] + committed[1..];
    } else if |uncommitted| > 0 {
      DocTail(committed, uncommitted);
      PartitionOfDoc(committed, uncommitted[1..]);
      assert doc[0] == Uncommitted(uncommitted[0]);
      assert uncommitted == [uncommitted[0]] + uncommitted[1..];
    } else {
      assert doc == [];
    }
  }

  /** Conversely, every list with its committed entries first is the block list
      built from its own two parts. */
  lemma {:induction false} DocOfPartition(doc: seq<Entry>)
    requires CommittedFirst(doc)
    ensures BlockListDoc(Partition(doc).0, Partition(doc).1) == doc
    decreases |doc|
  {
    if |doc| > 0 {
      assert CommittedFirst(doc[1..]);
      DocOfPartition(doc[1..]);
      var (c, u) := Partition(doc[1..]);
      var (pc, pu) := Partition(doc);
      if doc[0].Uncommitted? {
        NoCommittedAfterUncommitted(doc[1..]);
        assert pc == [] && pu == [doc[0].id] + u;
      } else {
        assert pc == [doc[0].id] + c && pu == u;
      }
      var rebuilt := BlockListDoc(pc, pu);
      DocTail(pc, pu);
      assert rebuilt[1..] == BlockListDoc(c, u) == doc[1..];
      assert rebuilt[0] == doc[0];
      assert rebuilt == [rebuilt[0]] + rebuilt[1..];
      assert doc == [doc[0]] + doc[1..];
    }
  }

  lemma {:induction false} NoCommittedAfterUncommitted(doc: seq<Entry>)
    requires |doc| > 0 ==> doc[0].Uncommitted?
    requires CommittedFirst(doc)
    ensures Partition(doc).0 == []
    decreases |doc|
  {
    if |doc| > 1 {
      assert CommittedFirst(doc[1..]);
      NoCommittedAfterUncommitted(doc[1..]);
    }
  }
}

=== FILE: payload.dfy ===
/** Payload assembly and chunking of `append_blob`: messages become CRLF-terminated
    lines, and the joined text is cut left to right into blocks of at most
    4,000,000 characters. */
module Payload {
  import opened Types
  import opened Text

  const LineBreak: string := "\r\n"

  /** Largest block, in characters (Ruby `String#length`, not bytes). */
  const ChunkSize: nat := 4000000

  /** What one message adds to the payload. */
  function Frame(m: Option<string>): string
  {
    if |Interpolated(m)| > 0 then Interpolated(m) + LineBreak else ""
  }

  /** The payload: the frames of all messages, in input order. */
  function Assemble(msgs: seq<Option<string>>): string
  {
    if |msgs| == 0 then "" else Frame(msgs[0]) + Assemble(msgs[1..])
  }

  /** The texts of the messages that are not empty, in input order. */
  function PresentTexts(msgs: seq<Option<string>>): (texts: seq<string>)
    ensures forall i :: 0 <= i < |texts| ==> |texts[i]| > 0
  {
    if |msgs| == 0 then []
    else if |Interpolated(msgs[0])| > 0 then [Interpolated(msgs[0])] + PresentTexts(msgs[1..])
    else PresentTexts(msgs[1..])
  }

  /** Each text followed by a line break. */
  function Terminated(texts: seq<string>): (lines: seq<string>)
    ensures |lines| == |texts|
    ensures forall i :: 0 <= i < |texts| ==> lines[i] == texts[i] + LineBreak
  {
    if |texts| == 0 then [] else [texts[0] + LineBreak] + Terminated(texts[1..])
  }

  /** Assembling two batches one after the other gives the two payloads one after the other. */
  lemma {:induction false} AssembleAppend(a: seq<Option<string>>, b: seq<Option<string>>)
    ensures Assemble(a + b) == Assemble(a) + Assemble(b)
    decreases |a|
  {
    if |a| == 0 {
      assert a + b == b;
    } else {
      assert (a + b)[1..] == a[1..] + b;
      AssembleAppend(a[1..], b);
    }
  }

  /** The payload is every non-empty message, in input order, each followed by
      "\r\n"; empty or missing messages contribute nothing. */
  lemma {:induction false} AssembleIsTerminatedLines(msgs: seq<Option<string>>)
    ensures Assemble(msgs) == Flatten(Terminated(PresentTexts(msgs)))
    decreases |msgs|
  {
    if |msgs| > 0 {
      AssembleIsTerminatedLines(msgs[1..]);
    }
  }

  /** `msg.slice!(0, chunk_size)` repeated while the text is not empty. */
  function Chunks(p: string): (cs: seq<string>)
    ensures forall i :: 0 <= i < |cs| ==> 0 < |cs[i]| <= ChunkSize
    ensures forall i :: 0 <= i < |cs| - 1 ==> |cs[i]| == ChunkSize
    ensures Flatten(cs) == p
    decreases |p|
  {
    if |p| == 0 then []
    else
      var n := if |p| < ChunkSize then |p| else ChunkSize;
      var rest := Chunks(p[n..]);
      assert p == p[..n] + p[n..];
      [p[..n]] + rest
  }

  /** ceil(|p| / 4,000,000) blocks. */
  lemma {:induction false} ChunkCount(p: string)
    ensures |Chunks(p)| == (|p| + ChunkSize - 1) / ChunkSize
    decreases |p|
  {
    if |p| > ChunkSize {
      ChunkCount(p[ChunkSize..]);
      assert |p[ChunkSize..]| + ChunkSize - 1 + ChunkSize == |p| + ChunkSize - 1;
    }
  }

  /** Greedy left-to-right cutting is the only way to cut: any list of non-empty
      pieces that concatenates to `p`, with every piece but the last exactly
      4,000,000 characters long and the last no longer, is `Chunks(p)`. */
  lemma {:induction false} ChunksUnique(p: string, cs: seq<string>)
    requires Flatten(cs) == p
    requires forall i :: 0 <= i < |cs| ==> 0 < |cs[i]| <= ChunkSize
    requires forall i :: 0 <= i < |cs| - 1 ==> |cs[i]| == ChunkSize
    ensures cs == Chunks(p)
    decreases |cs|
  {
    if |cs| > 0 {
      var n := if |p| < ChunkSize then |p| else ChunkSize;
      assert p == cs[0] + Flatten(cs[1..]);
      if |cs| == 1 {
        assert Flatten(cs[1..]) == "";
        assert n == |cs[0]|;
      } else {
        FlattenLength(cs[1..], 0);
        assert n == |cs[0]|;
      }
      assert p[..n] == cs[0];
      assert p[n..] == Flatten(cs[1..]);
      ChunksUnique(p[n..], cs[1..]);
      assert cs == [cs[0]] + cs[1..];
    }
  }

  /** A block of 4,000,000 characters may be far larger than 4,000,000 bytes:
      the limit counts characters while `Content-Length` counts UTF-8 bytes. */
  lemma ChunkBytesCanExceedChunkSize()
    ensures var p := seq(ChunkSize, _ => 'é');
            |Chunks(p)| == 1 && Utf8Size(Chunks(p)[0]) == 2 * ChunkSize
  {
    var p := seq(ChunkSize, _ => 'é');
    assert p[..ChunkSize] == p;
    Utf8SizeUniform('é', ChunkSize);
  }

  /** Every block's byte size lies between its character count and four times
      the character limit. */
  lemma ChunkByteBounds(p: string, i: nat)
    requires i < |Chunks(p)|
    ensures |Chunks(p)[i]| <= Utf8Size(Chunks(p)[i]) <= 4 * ChunkSize
  {
    Utf8SizeBounds(Chunks(p)[i]);
  }
}

=== FILE: plugin.dfy ===
/** The plugin's flush: `write` groups the buffered records by tag and hands
    each group to `handle_records`, which classifies the tag, asks the control
    plane for the blob's URI and appends the group's messages to that blob. */
module Plugin {
  import opened Types
  import opened Text
  import opened Payload
  import opened Storage
  import opened Routing
  import opened BlobUri
  import opened Protocol

  /** One buffered event: its tag and its record's "message" field (nil when absent). */
  datatype Record = Record(tag: string, message: Option<string>)

  /** The messages collected for one tag. */
  datatype Group = Group(tag: string, messages: seq<Option<string>>)

  function Tags(groups: seq<Group>): (tags: seq<string>)
    ensures |tags| == |groups|
    ensures forall i :: 0 <= i < |groups| ==> tags[i] == groups[i].tag
  {
    if |groups| == 0 then [] else [groups[0].tag] + Tags(groups[1..])
  }

  /** Position of the group for `tag`, or the number of groups when there is none. */
  function GroupIndex(groups: seq<Group>, tag: string): (i: nat)
    ensures i <= |groups|
    ensures i < |groups| ==> groups[i].tag == tag
    ensures forall j :: 0 <= j < i ==> groups[j].tag != tag
  {
    if |groups| == 0 then 0 else if groups[0].tag == tag then 0 else 1 + GroupIndex(groups[1..], tag)
  }

  /** `datatypes[tag] << record['message']`, opening an empty list for a tag
      seen for the first time. */
  function AddRecord(groups: seq<Group>, r: Record): seq<Group>
  {
    var i := GroupIndex(groups, r.tag);
    if i < |groups| then groups[i := Group(r.tag, groups[i].messages + [r.message])]
    else groups + [Group(r.tag, [r.message])]
  }

  /** Lines 259-264: the records folded, in arrival order, into a hash keyed by
      tag, whose iteration order is insertion order. */
  function GroupByTag(records: seq<Record>): seq<Group>
    decreases |records|
  {
    if |records| == 0 then []
    else AddRecord(GroupByTag(records[..|records| - 1]), records[|records| - 1])
  }

  /** The message one record contributes to `tag`'s group: its own, or none. */
  function Picked(r: Record, tag: string): seq<Option<string>>
  {
    if r.tag == tag then [r.message] else []
  }

  /** The messages of the records carrying `tag`, in arrival order. */
  function MessagesFor(records: seq<Record>, tag: string): seq<Option<string>>
  {
    if |records| == 0 then [] else Picked(records[0], tag) + MessagesFor(records[1..], tag)
  }

  /** Position of the first record carrying `tag`, or the number of records
      when there is none. */
  function FirstIndex(records: seq<Record>, tag: string): (i: nat)
    ensures i <= |records|
    ensures i < |records| ==> records[i].tag == tag
    ensures forall k :: 0 <= k < i ==> records[k].tag != tag
  {
    if |records| == 0 then 0 else if records[0].tag == tag then 0 else 1 + FirstIndex(records[1..], tag)
  }

  /** Some group is for `tag`. */
  predicate HasGroup(groups: seq<Group>, tag: string)
  {
    exists i :: 0 <= i < |groups| && groups[i].tag == tag
  }

  predicate DistinctTags(groups: seq<Group>)
  {
    forall i, j :: 0 <= i < j < |groups| ==> groups[i].tag != groups[j].tag
  }

  /** Every record's tag has a group. */
  predicate Covers(records: seq<Record>, groups: seq<Group>)
  {
    forall k :: 0 <= k < |records| ==> HasGroup(groups, records[k].tag)
  }

  /** Every group's tag has arrived. */
  predicate Arrived(records: seq<Record>, groups: seq<Group>)
  {
    forall i :: 0 <= i < |groups| ==> FirstIndex(records, groups[i].tag) < |records|
  }

  /** Every group holds exactly its tag's messages, in arrival order. */
  predicate Collects(records: seq<Record>, groups: seq<Group>)
  {
    forall i :: 0 <= i < |groups| ==> groups[i].messages == MessagesFor(records, groups[i].tag)
  }

  /** Groups are in the order their tags first arrived. */
  predicate FirstSeenOrder(records: seq<Record>, groups: seq<Group>)
  {
    forall i, j :: 0 <= i < j < |groups| ==>
      FirstIndex(records, groups[i].tag) < FirstIndex(records, groups[j].tag)
  }

  /** What grouping promises: one group per distinct tag (every record's tag
      has a group and every group's tag arrived), groups in the order their
      tags first arrived, each holding exactly its tag's messages in arrival
      order. */
  predicate GroupsOf(records: seq<Record>, groups: seq<Group>)
  {
    && DistinctTags(groups)
    && Covers(records, groups)
    && Arrived(records, groups)
    && Collects(records, groups)
    && FirstSeenOrder(records, groups)
  }

  lemma {:induction false} MessagesForSnoc(records: seq<Record>, r: Record, tag: string)
    ensures MessagesFor(records + [r], tag)
            == MessagesFor(records, tag) + Picked(r, tag)
    decreases |records|
  {
    var all := records + [r];
    if |records| == 0 {
      assert all == [r] && all[1..] == [];
      assert Picked(r, tag) + [] == Picked(r, tag);
    } else {
      assert all[0] == records[0] && all[1..] == records[1..] + [r];
      MessagesForSnoc(records[1..], r, tag);
      var head := Picked(records[0], tag);
      assert MessagesFor(all, tag) == head + (MessagesFor(records[1..], tag) + Picked(r, tag));
      assert head + (MessagesFor(records[1..], tag) + Picked(r, tag))
             == (head + MessagesFor(records[1..], tag)) + Picked(r, tag);
    }
  }

  /** A tag no record carries collects no messages. */
  lemma {:induction false} MessagesForAbsent(records: seq<Record>, tag: string)
    requires forall k :: 0 <= k < |records| ==> records[k].tag != tag
    ensures MessagesFor(records, tag) == []
    decreases |records|
  {
    if |records| > 0 {
      assert forall k :: 0 <= k < |records[1..]| ==> records[1..][k] == records[k + 1];
      MessagesForAbsent(records[1..], tag);
    }
  }

  /** A tag already seen keeps its first position when a record arrives; a new
      tag's first position is the arriving record's. */
  lemma FirstIndexSnoc(records: seq<Record>, r: Record, tag: string)
    ensures FirstIndex(records, tag) < |records| ==> FirstIndex(records + [r], tag) == FirstIndex(records, tag)
    ensures FirstIndex(records, tag) == |records| && r.tag == tag ==> FirstIndex(records + [r], tag) == |records|
  {
    var all := records + [r];
    assert forall k :: 0 <= k < |records| ==> all[k] == records[k];
    assert all[|records|] == r;
  }

  /** Grouping meets its promise on every input. */
  lemma {:induction false} GroupByTagGroups(records: seq<Record>)
    ensures GroupsOf(records, GroupByTag(records))
    decreases |records|
  {
    if |records| > 0 {
      var n := |records| - 1;
      var front := records[..n];
      var r := records[n];
      assert records == front + [r];
      GroupByTagGroups(front);
      AddRecordGroups(front, GroupByTag(front), r);
    }
  }

  /** Every existing group keeps its first position and gains the arriving
      message exactly when the tags match. */
  lemma ExistingGroupsSnoc(front: seq<Record>, g: seq<Group>, r: Record)
    requires GroupsOf(front, g)
    ensures forall j :: 0 <= j < |g| ==>
              && FirstIndex(front + [r], g[j].tag) == FirstIndex(front, g[j].tag)
              && MessagesFor(front + [r], g[j].tag) == g[j].messages + Picked(r, g[j].tag)
  {
    forall j | 0 <= j < |g|
      ensures FirstIndex(front + [r], g[j].tag) == FirstIndex(front, g[j].tag)
      ensures MessagesFor(front + [r], g[j].tag) == g[j].messages + Picked(r, g[j].tag)
    {
      FirstIndexSnoc(front, r, g[j].tag);
      MessagesForSnoc(front, r, g[j].tag);
    }
  }

  /** Adding one record to the groups of `front` gives the groups of `front + [r]`. */
  lemma AddRecordGroups(front: seq<Record>, g: seq<Group>, r: Record)
    requires GroupsOf(front, g)
    ensures GroupsOf(front + [r], AddRecord(g, r))
  {
    ExistingGroupsSnoc(front, g, r);
    if GroupIndex(g, r.tag) < |g| {
      AddToExistingGroup(front, g, r);
    } else {
      AddNewGroup(front, g, r);
    }
  }

  lemma {:induction false} AddToExistingGroup(front: seq<Record>, g: seq<Group>, r: Record)
    requires GroupsOf(front, g)
    requires GroupIndex(g, r.tag) < |g|
    requires forall j :: 0 <= j < |g| ==>
              && FirstIndex(front + [r], g[j].tag) == FirstIndex(front, g[j].tag)
              && MessagesFor(front + [r], g[j].tag) == g[j].messages + Picked(r, g[j].tag)
    ensures GroupsOf(front + [r], AddRecord(g, r))
  {
    var all := front + [r];
    var i := GroupIndex(g, r.tag);
    var g' := g[i := Group(r.tag, g[i].messages + [r.message])];
    assert g' == AddRecord(g, r);
    assert forall j :: 0 <= j < |g| ==> g'[j].tag == g[j].tag;
    assert HasGroup(g', r.tag) by { assert g'[i].tag == r.tag; }
    CoverExtends(front, r, g, g');
    ExistingMessages(all, g, r, i);
    KeptOrder(front, all, g, g');
  }

  /** Groups that keep the old groups' tags in place, and have one for the
      arriving tag, cover every record so far. */
  lemma CoverExtends(front: seq<Record>, r: Record, g: seq<Group>, g': seq<Group>)
    requires Covers(front, g)
    requires |g| <= |g'|
    requires forall j :: 0 <= j < |g| ==> g'[j].tag == g[j].tag
    requires HasGroup(g', r.tag)
    ensures Covers(front + [r], g')
  {
    var all := front + [r];
    forall k | 0 <= k < |all|
      ensures HasGroup(g', all[k].tag)
    {
      if k < |front| {
        assert all[k] == front[k];
        var j :| 0 <= j < |g| && g[j].tag == front[k].tag;
        assert g'[j].tag == front[k].tag;
      } else {
        assert all[k] == r;
      }
    }
  }

  /** Appending the arriving message to its tag's group gives every group the
      messages of its tag. */
  lemma ExistingMessages(all: seq<Record>, g: seq<Group>, r: Record, i: nat)
    requires i < |g| && g[i].tag == r.tag
    requires DistinctTags(g)
    requires forall j :: 0 <= j < |g| ==> MessagesFor(all, g[j].tag) == g[j].messages + Picked(r, g[j].tag)
    ensures Collects(all, g[i := Group(r.tag, g[i].messages + [r.message])])
  {
    var g' := g[i := Group(r.tag, g[i].messages + [r.message])];
    forall j | 0 <= j < |g'|
      ensures g'[j].messages == MessagesFor(all, g'[j].tag)
    {
      if j != i {
        assert g'[j] == g[j] && g[j].tag != r.tag;
        assert g[j].messages + [] == g[j].messages;
      }
    }
  }

  /** Groups with the same tags in the same places, each first seen where it
      was before, stay distinct, arrived and in first-seen order. */
  lemma KeptOrder(front: seq<Record>, all: seq<Record>, g: seq<Group>, g': seq<Group>)
    requires DistinctTags(g) && Arrived(front, g) && FirstSeenOrder(front, g)
    requires |front| <= |all|
    requires |g'| == |g|
    requires forall j :: 0 <= j < |g| ==> g'[j].tag == g[j].tag
    requires forall j :: 0 <= j < |g| ==> FirstIndex(all, g[j].tag) == FirstIndex(front, g[j].tag)
    ensures DistinctTags(g') && Arrived(all, g') && FirstSeenOrder(all, g')
  {
  }

  /** A tag without a group has not arrived before: its first record and its
      only message are the arriving ones. */
  lemma {:induction false} NewTagFacts(front: seq<Record>, g: seq<Group>, r: Record)
    requires Covers(front, g)
    requires GroupIndex(g, r.tag) == |g|
    ensures forall k :: 0 <= k < |front| ==> front[k].tag != r.tag
    ensures FirstIndex(front + [r], r.tag) == |front|
    ensures MessagesFor(front + [r], r.tag) == [r.message]
  {
    forall k | 0 <= k < |front|
      ensures front[k].tag != r.tag
    {
      var j :| 0 <= j < |g| && g[j].tag == front[k].tag;
    }
    FirstIndexSnoc(front, r, r.tag);
    MessagesForSnoc(front, r, r.tag);
    MessagesForAbsent(front, r.tag);
  }

  lemma {:induction false} AddNewGroup(front: seq<Record>, g: seq<Group>, r: Record)
    requires GroupsOf(front, g)
    requires GroupIndex(g, r.tag) == |g|
    requires forall j :: 0 <= j < |g| ==>
              && FirstIndex(front + [r], g[j].tag) == FirstIndex(front, g[j].tag)
              && MessagesFor(front + [r], g[j].tag) == g[j].messages + Picked(r, g[j].tag)
    ensures GroupsOf(front + [r], AddRecord(g, r))
  {
    var all := front + [r];
    var g' := g + [Group(r.tag, [r.message])];
    assert g' == AddRecord(g, r);
    NewTagFacts(front, g, r);
    assert forall j :: 0 <= j < |g| ==> g'[j] == g[j];
    assert HasGroup(g', r.tag) by { assert g'[|g|].tag == r.tag; }
    CoverExtends(front, r, g, g');
    NewGroupMessages(all, g, r);
    NewGroupOrder(front, all, g, r);
  }

  /** The old groups gain nothing from a record of a new tag, and the new
      group holds just its message. */
  lemma NewGroupMessages(all: seq<Record>, g: seq<Group>, r: Record)
    requires forall j :: 0 <= j < |g| ==> g[j].tag != r.tag
    requires forall j :: 0 <= j < |g| ==> MessagesFor(all, g[j].tag) == g[j].messages + Picked(r, g[j].tag)
    requires MessagesFor(all, r.tag) == [r.message]
    ensures Collects(all, g + [Group(r.tag, [r.message])])
  {
    var g' := g + [Group(r.tag, [r.message])];
    forall j | 0 <= j < |g'|
      ensures g'[j].messages == MessagesFor(all, g'[j].tag)
    {
      if j < |g| {
        assert g'[j] == g[j];
        assert g[j].messages + [] == g[j].messages;
      }
    }
  }

  /** A new tag's group goes last: its tag is distinct, has arrived at the end,
      and after every earlier tag. */
  lemma NewGroupOrder(front: seq<Record>, all: seq<Record>, g: seq<Group>, r: Record)
    requires DistinctTags(g) && Arrived(front, g) && FirstSeenOrder(front, g)
    requires |all| == |front| + 1
    requires forall j :: 0 <= j < |g| ==> g[j].tag != r.tag
    requires forall j :: 0 <= j < |g| ==> FirstIndex(all, g[j].tag) == FirstIndex(front, g[j].tag)
    requires FirstIndex(all, r.tag) == |front|
    ensures var g' := g + [Group(r.tag, [r.message])];
            DistinctTags(g') && Arrived(all, g') && FirstSeenOrder(all, g')
  {
    var g' := g + [Group(r.tag, [r.message])];
    assert forall j :: 0 <= j < |g'| ==> g'[j].tag == if j < |g| then g[j].tag else r.tag;
  }

  /** The outcome of one flush: the calls made, the resulting world, the error
      that aborted the flush, the tags handed to `handle_records`, in order, and
      what each of those `handle_records` calls did. */
  datatype Batch = Batch(trace: seq<Op>, world: World, error: Option<Error>, dispatched: seq<string>, runs: seq<Run>)

  /** The calls of a sequence of runs, one run after the other. */
  function Traces(runs: seq<Run>): seq<Op>
  {
    if |runs| == 0 then [] else runs[0].trace + Traces(runs[1..])
  }

  /** The world the run at position `k` starts from: the initial one, then what
      each run leaves behind. */
  function WorldBefore(w: World, runs: seq<Run>, k: nat): World
    requires k <= |runs|
  {
    if k == 0 then w else runs[k - 1].world
  }

  /** `handle_records` for the group at position `k` of the flush, taking
      clock reading `clock(k)`. */
  function Handler(sv: Services, s: Settings, clock: nat -> UtcTime): (nat, World, Group) -> Run
  {
    (k: nat, w: World, g: Group) => HandleRecords(sv, s, clock(k), w, g.tag, g.messages)
  }

  /** `runs` are `step` applied to the groups in turn, from position `first`,
      each on the world the previous run left. */
  predicate InTurn(step: (nat, World, Group) -> Run, first: nat, w: World, groups: seq<Group>, runs: seq<Run>)
  {
    && |runs| <= |groups|
    && forall k :: 0 <= k < |runs| ==> runs[k] == step(first + k, WorldBefore(w, runs, k), groups[k])
  }

  lemma InTurnCons(step: (nat, World, Group) -> Run, first: nat, w: World, groups: seq<Group>, r: Run, rest: seq<Run>)
    requires |groups| > 0 && r == step(first, w, groups[0])
    requires InTurn(step, first + 1, r.world, groups[1..], rest)
    ensures InTurn(step, first, w, groups, [r] + rest)
  {
    var runs := [r] + rest;
    forall k | 1 <= k < |runs|
      ensures runs[k] == step(first + k, WorldBefore(w, runs, k), groups[k])
    {
      assert runs[k] == rest[k - 1];
      assert WorldBefore(w, runs, k) == WorldBefore(r.world, rest, k - 1);
      assert groups[1..][k - 1] == groups[k];
      assert first + 1 + (k - 1) == first + k;
    }
  }

  /** `b` handled `groups` one after the other, starting from `w`: the `k`-th
      run is `handle_records` of the `k`-th group at clock reading
      `clock(first + k)` on the world the previous run left (see `RunOfGroup`);
      every run but the last succeeded; the calls, the final world and the error
      are those of the runs; and the groups left unhandled follow a failure. */
  predicate HandledInTurn(sv: Services, s: Settings, clock: nat -> UtcTime, first: nat, w: World, groups: seq<Group>, b: Batch)
  {
    RanInTurn(Handler(sv, s, clock), first, w, groups, b)
  }

  /** `b` ran `step` over `groups` in turn, stopping at the first failure. */
  predicate RanInTurn(step: (nat, World, Group) -> Run, first: nat, w: World, groups: seq<Group>, b: Batch)
  {
    && |b.runs| == |b.dispatched|
    && InTurn(step, first, w, groups, b.runs)
    && (forall k :: 0 <= k < |b.runs| - 1 ==> b.runs[k].error.None?)
    && b.trace == Traces(b.runs)
    && b.world == WorldBefore(w, b.runs, |b.runs|)
    && b.error == (if |b.runs| == 0 then None else b.runs[|b.runs| - 1].error)
    && (|b.runs| < |groups| ==> b.error.Some?)
  }

  /** In a flush handled in turn, the run at position `k` is `handle_records`
      of the `k`-th group, at its own clock reading, on the world the previous
      run left. */
  lemma RunOfGroup(sv: Services, s: Settings, clock: nat -> UtcTime, first: nat, w: World, groups: seq<Group>, b: Batch, k: nat)
    requires HandledInTurn(sv, s, clock, first, w, groups, b)
    requires k < |b.runs|
    ensures k < |groups|
    ensures b.runs[k] == HandleRecords(sv, s, clock(first + k), WorldBefore(w, b.runs, k), groups[k].tag, groups[k].messages)
  {
  }

  /** A blob's committed content is unchanged everywhere. */
  ghost predicate CommittedUnchanged(w: World, w': World)
  {
    forall v :: BlobAt(w'.store, v).committed == BlobAt(w.store, v).committed
  }

  /** Lines 231-236 once the request `req` is built: ask for the blob URI first;
      no URI fails the batch, and otherwise the run continues as `append_blob`
      of the messages to that URI. */
  predicate ResolvesThenAppends(sv: Services, w: World, req: UriRequest, msgs: seq<Option<string>>, r: Run)
  {
    && |r.trace| >= 1 && r.trace[0] == RequestBlobUri(req)
    && (sv.resolve(req).None? ==> r == Run([RequestBlobUri(req)], w, Some(ResolutionFailed)))
    && (sv.resolve(req).Some? ==>
          var a := AppendBlob(sv, w, sv.resolve(req).value, msgs);
          r.trace[1..] == a.trace && r.world == a.world && r.error == a.error)
  }

  /** `handle_records` for one group: classify the tag, build the URI request
      (the default template raises on a nil custom type or suffix), resolve the
      blob's URI, then append the messages. */
  function HandleRecords(sv: Services, s: Settings, now: UtcTime, w: World, tag: string, msgs: seq<Option<string>>): (r: Run)
    ensures |RubySplit(tag)| < 4 || (|RubySplit(tag)| >= 4 && |tag| < 6) ==> r == Run([], w, Some(NilCustomType))
    ensures |RubySplit(tag)| == 4 && |tag| >= 6 ==> r == Run([], w, Some(NilSuffixSegments))
    ensures r.trace == [] ==> r.world == w
    ensures r.trace != [] ==> r.trace[0].RequestBlobUri?
    ensures r.error.Some? ==> CommittedUnchanged(w, r.world)
    ensures ClassifyTag(tag, now).Err? ==> r == Run([], w, Some(ClassifyTag(tag, now).error))
    ensures ClassifyTag(tag, now).Ok? && BuildUriRequest(ClassifyTag(tag, now).value, s).Err? ==>
              r == Run([], w, Some(BuildUriRequest(ClassifyTag(tag, now).value, s).error))
    ensures ClassifyTag(tag, now).Ok? && BuildUriRequest(ClassifyTag(tag, now).value, s).Ok? ==>
              ResolvesThenAppends(sv, w, BuildUriRequest(ClassifyTag(tag, now).value, s).value, msgs, r)
  {
    ClassifyTagSpec(tag, now);
    match ClassifyTag(tag, now)
    case Err(e) => Run([], w, Some(e))
    case Ok(key) =>
      match BuildUriRequest(key, s)
      case Err(e) => Run([], w, Some(e))
      case Ok(req) =>
        var ask := RequestBlobUri(req);
        match sv.resolve(req)
        case None => Run([ask], w, Some(ResolutionFailed))
        case Some(uri) =>
          var a := AppendBlob(sv, w, uri, msgs);
          Run([ask] + a.trace, a.world, a.error)
  }

  /** Lines 267-269: each group in turn; an exception ends the flush, so later
      groups are not handled. Each `handle_records` call reads the clock anew:
      the group at position `k` of the flush is handled at `clock(k)`, and
      `groups` starts at position `first`. */
  function HandleGroups(sv: Services, s: Settings, clock: nat -> UtcTime, first: nat, w: World, groups: seq<Group>): (b: Batch)
    ensures |b.dispatched| <= |groups|
    ensures b.dispatched == Tags(groups)[..|b.dispatched|]
    ensures b.error.None? ==> b.dispatched == Tags(groups)
    ensures b.error.Some? ==> |b.dispatched| > 0
    ensures HandledInTurn(sv, s, clock, first, w, groups, b)
    decreases |groups|
  {
    if |groups| == 0 then Batch([], w, None, [], [])
    else
      var r := HandleRecords(sv, s, clock(first), w, groups[0].tag, groups[0].messages);
      var tags := Tags(groups);
      assert tags == [groups[0].tag] + Tags(groups[1..]);
      if r.error.Some? then
        assert tags[..1] == [groups[0].tag];
        Batch(r.trace, r.world, r.error, [groups[0].tag], [r])
      else
        var rest := HandleGroups(sv, s, clock, first + 1, r.world, groups[1..]);
        PrefixCons(groups[0].tag, Tags(groups[1..]), |rest.dispatched|);
        HandledFirst(Handler(sv, s, clock), first, w, groups, r, rest);
        Batch(r.trace + rest.trace, rest.world, rest.error, [groups[0].tag] + rest.dispatched, [r] + rest.runs)
  }

  /** A successful first run in front of the handling of the remaining groups
      is the handling of all of them. */
  lemma HandledFirst(step: (nat, World, Group) -> Run, first: nat, w: World, groups: seq<Group>, r: Run, rest: Batch)
    requires |groups| > 0 && r == step(first, w, groups[0])
    requires r.error.None?
    requires RanInTurn(step, first + 1, r.world, groups[1..], rest)
    ensures RanInTurn(step, first, w, groups,
                   Batch(r.trace + rest.trace, rest.world, rest.error, [groups[0].tag] + rest.dispatched, [r] + rest.runs))
  {
    var runs := [r] + rest.runs;
    InTurnCons(step, first, w, groups, r, rest.runs);
    assert runs[1..] == rest.runs;
    assert Traces(runs) == r.trace + Traces(rest.runs);
    forall k | 0 <= k < |runs| - 1
      ensures runs[k].error.None?
    {
      if k > 0 {
        assert runs[k] == rest.runs[k - 1];
      }
    }
    assert runs[|runs| - 1] == if |rest.runs| == 0 then r else rest.runs[|rest.runs| - 1];
  }

  lemma PrefixCons<T>(x: T, s: seq<T>, n: nat)
    requires n <= |s|
    ensures ([x] + s)[..n + 1] == [x] + s[..n]
  {
  }

  /** `write`: without a loaded configuration nothing is sent; otherwise the
      records are grouped by tag and each group is handled, in first-seen order,
      the `k`-th group at clock reading `clock(k)`. */
  function Write(configured: bool, sv: Services, s: Settings, clock: nat -> UtcTime, w: World, records: seq<Record>): (b: Batch)
    ensures !configured ==> b.trace == [] && b.world == w && b.error == Some(MissingConfiguration)
    ensures configured ==> |b.dispatched| <= |GroupByTag(records)|
    ensures configured ==> b.dispatched == Tags(GroupByTag(records))[..|b.dispatched|]
    ensures configured ==> HandledInTurn(sv, s, clock, 0, w, GroupByTag(records), b)
  {
    if !configured then Batch([], w, Some(MissingConfiguration), [], [])
    else HandleGroups(sv, s, clock, 0, w, GroupByTag(records))
  }

  /** A flush that completes hands every distinct tag to `handle_records`
      exactly once, in the order the tags first arrived. */
  lemma {:induction false} WriteDispatchesEachTagOnce(configured: bool, sv: Services, s: Settings, clock: nat -> UtcTime, w: World, records: seq<Record>)
    requires configured
    ensures var b := Write(configured, sv, s, clock, w, records);
            b.error.None? ==>
              && (forall i, j :: 0 <= i < j < |b.dispatched| ==> b.dispatched[i] != b.dispatched[j])
              && (forall k :: 0 <= k < |records| ==> records[k].tag in b.dispatched)
              && (forall i :: 0 <= i < |b.dispatched| ==> FirstIndex(records, b.dispatched[i]) < |records|)
              && (forall i, j :: 0 <= i < j < |b.dispatched| ==>
                    FirstIndex(records, b.dispatched[i]) < FirstIndex(records, b.dispatched[j]))
  {
    var g := GroupByTag(records);
    GroupByTagGroups(records);
    TagsOfGroups(records, g);
  }

  /** The tags of a grouping: distinct, covering every record, and in
      first-arrival order. */
  lemma TagsOfGroups(records: seq<Record>, g: seq<Group>)
    requires GroupsOf(records, g)
    ensures var tags := Tags(g);
            && (forall i, j :: 0 <= i < j < |tags| ==> tags[i] != tags[j])
            && (forall k :: 0 <= k < |records| ==> records[k].tag in tags)
            && (forall i :: 0 <= i < |tags| ==> FirstIndex(records, tags[i]) < |records|)
            && (forall i, j :: 0 <= i < j < |tags| ==> FirstIndex(records, tags[i]) < FirstIndex(records, tags[j]))
  {
    var tags := Tags(g);
    forall k | 0 <= k < |records|
      ensures records[k].tag in tags
    {
      var j :| 0 <= j < |g| && g[j].tag == records[k].tag;
      assert tags[j] == records[k].tag;
    }
  }

  /** The request a custom-log tag leads to under the default template. */
  function CustomLogRequest(segments: seq<string>, s: Settings, now: UtcTime): UriRequest
    requires |segments| >= 6
  {
    UriRequest(Some(segments[2]), Some(segments[3] + "." + segments[4]), s.expiry,
               segments[4] + TemplateGuid + s.hostname + "/" + s.agentId + "/"
               + TimePrefix(now) + Join(segments[5..], ".") + ".log")
  }

  /** End to end for one custom-log group: the tag
      `oms.blob.<container>.<data>.<custom>.<file>...` leads to a request for
      container, `data.custom` and the time-bucketed path; when the control
      plane answers with a URI and storage behaves, the blob's content grows by
      exactly the group's payload. */
  lemma {:induction false} CustomLogGroupAppends(sv: Services, s: Settings, now: UtcTime, w: World,
                              segments: seq<string>, msgs: seq<Option<string>>, uri: string)
    requires |segments| >= 6
    requires forall i :: 0 <= i < |segments| ==> NoDot(segments[i])
    requires segments[|segments| - 1] != ""
    requires sv.resolve(CustomLogRequest(segments, s, now)) == Some(uri)
    requires Reliable(sv) && UniqueIds(sv)
    requires FreshAt(sv, w, uri) && Consistent(BlobAt(w.store, uri))
    ensures var r := HandleRecords(sv, s, now, w, Join(segments, "."), msgs);
            && r.error.None?
            && r.trace[0] == RequestBlobUri(CustomLogRequest(segments, s, now))
            && Content(r.world.store, uri) == Content(w.store, uri) + Assemble(msgs)
  {
    var tag := Join(segments, ".");
    CustomLogTag(segments, now);
    var key := ClassifyTag(tag, now).value;
    var req := BuildUriRequest(key, s).value;
    assert req == CustomLogRequest(segments, s, now);
    AppendBlobAppends(sv, w, uri, msgs);
  }
}

=== FILE: protocol.dfy ===
/** The storage calls of `append_blob`, `upload_block` and `commit_blocks`,
    recorded as a trace of operations against the abstract storage service.
    Block ids, the control plane's answer and the transport's success are
    supplied by `Services`. */
module Protocol {
  import opened Types
  import opened Text
  import opened BlockList
  import opened Payload
  import opened Storage
  import BlobUri
  import Requests

  /** One call the plugin makes. */
  datatype Op =
    | RequestBlobUri(request: BlobUri.UriRequest)
    | GetBlockList(uri: string)
    | PutBlock(uri: string, id: BlockId, chunk: string)
    | PutBlockList(uri: string, doc: seq<Entry>)

  /** What the plugin cannot compute itself: the blob URI the control plane
      returns for a request (None when the request or its reply fails), the
      `n`-th drawn block id, and whether the transport delivers a call. */
  datatype Services = Services(
    resolve: BlobUri.UriRequest -> Option<string>,
    blockId: nat -> BlockId,
    accepts: Op -> bool)

  /** The storage state and how many block ids have been drawn so far. */
  datatype World = World(store: Store, nextId: nat)

  /** The calls made, the resulting world, and the error that stopped the work. */
  datatype Run = Run(trace: seq<Op>, world: World, error: Option<Error>)

  /** The result of the upload loop: the calls made, the resulting store, how
      many chunks were accepted, and whether a call failed. */
  datatype Upload = Upload(trace: seq<Op>, store: Store, uploaded: nat, failed: bool)

  /** Every call but the last was delivered: a rejected call raises, so it can
      only be the last call made. */
  predicate StopsAtRejection(sv: Services, trace: seq<Op>)
  {
    forall k :: 0 <= k < |trace| - 1 ==> sv.accepts(trace[k])
  }

  predicate AllAccepted(sv: Services, trace: seq<Op>)
  {
    forall k :: 0 <= k < |trace| ==> sv.accepts(trace[k])
  }

  /** How a run ends under the transport: every call but the last was delivered;
      a run that succeeds had every call delivered; a rejected last call makes
      the run fail; and a run that fails with its last call delivered failed on
      the block list the storage service refused. */
  predicate RaisesOnRejection(sv: Services, r: Run)
  {
    && StopsAtRejection(sv, r.trace)
    && (r.error.None? ==> AllAccepted(sv, r.trace))
    && (|r.trace| >= 1 && !sv.accepts(r.trace[|r.trace| - 1]) ==> r.error.Some?)
    && (r.error.Some? ==> |r.trace| >= 1 && (sv.accepts(r.trace[|r.trace| - 1]) ==> r.trace[|r.trace| - 1].PutBlockList?))
  }

  /** `n` consecutive ids from the oracle, starting at draw `from`. */
  function IdsFrom(sv: Services, from: nat, n: nat): (ids: seq<BlockId>)
    ensures |ids| == n
    ensures forall k :: 0 <= k < n ==> ids[k] == sv.blockId(from + k)
    decreases n
  {
    if n == 0 then [] else [sv.blockId(from)] + IdsFrom(sv, from + 1, n - 1)
  }

  /** What `UploadChunks` promises about an upload `u` of `chunks` under `ids`. */
  predicate UploadedAsStated(sv: Services, uri: string, ids: seq<BlockId>, chunks: seq<string>, u: Upload)
    requires |ids| == |chunks|
  {
    && u.uploaded <= |chunks|
    && (u.failed <==> u.uploaded < |chunks|)
    && |u.trace| == u.uploaded + (if u.failed then 1 else 0)
    && (forall k :: 0 <= k < |u.trace| ==> u.trace[k] == PutBlock(uri, ids[k], chunks[k]))
    && (forall k :: 0 <= k < u.uploaded ==> sv.accepts(u.trace[k]))
    && (u.failed ==> !sv.accepts(u.trace[u.uploaded]))
  }

  /** An accepted first upload in front of an upload of the rest. */
  lemma UploadCons(sv: Services, uri: string, ids: seq<BlockId>, chunks: seq<string>, rest: Upload, store: Store)
    requires |ids| == |chunks| > 0 && sv.accepts(PutBlock(uri, ids[0], chunks[0]))
    requires UploadedAsStated(sv, uri, ids[1..], chunks[1..], rest)
    ensures UploadedAsStated(sv, uri, ids, chunks,
                             Upload([PutBlock(uri, ids[0], chunks[0])] + rest.trace, store, rest.uploaded + 1, rest.failed))
  {
    ConsShifts(PutBlock(uri, ids[0], chunks[0]), rest.trace);
  }

  /** The loop of lines 131-135: each chunk, in order, is put as an uncommitted
      block under its id; a failed put raises, ending the loop. */
  function UploadChunks(sv: Services, store: Store, uri: string, ids: seq<BlockId>, chunks: seq<string>): (u: Upload)
    requires |ids| == |chunks|
    ensures u.uploaded <= |chunks|
    ensures u.failed <==> u.uploaded < |chunks|
    ensures |u.trace| == u.uploaded + (if u.failed then 1 else 0)
    ensures forall k :: 0 <= k < |u.trace| ==> u.trace[k] == PutBlock(uri, ids[k], chunks[k])
    ensures forall k :: 0 <= k < u.uploaded ==> sv.accepts(u.trace[k])
    ensures u.failed ==> !sv.accepts(u.trace[u.uploaded])
    decreases |chunks|
  {
    if |chunks| == 0 then Upload([], store, 0, false)
    else
      var op := PutBlock(uri, ids[0], chunks[0]);
      if !sv.accepts(op) then Upload([op], store, 0, true)
      else
        var rest := UploadChunks(sv, StageBlock(store, uri, ids[0], chunks[0]), uri, ids[1..], chunks[1..]);
        UploadCons(sv, uri, ids, chunks, rest, rest.store);
        Upload([op] + rest.trace, rest.store, rest.uploaded + 1, rest.failed)
  }

  /** Uploading stages blocks only: no committed list changes, and no other blob. */
  lemma {:induction false} UploadKeepsCommitted(sv: Services, store: Store, uri: string, ids: seq<BlockId>, chunks: seq<string>)
    requires |ids| == |chunks|
    ensures var u := UploadChunks(sv, store, uri, ids, chunks);
            && BlobAt(u.store, uri).committed == BlobAt(store, uri).committed
            && forall v :: v != uri ==> BlobAt(u.store, v) == BlobAt(store, v)
    decreases |chunks|
  {
    if |chunks| > 0 && sv.accepts(PutBlock(uri, ids[0], chunks[0])) {
      UploadKeepsCommitted(sv, StageBlock(store, uri, ids[0], chunks[0]), uri, ids[1..], chunks[1..]);
    }
  }

  /** The calls of an upload-and-commit run, whatever its outcome: the first
      chunks go up in order under the ids drawn for them; a run that stops at an
      upload has drawn one id per upload attempted, and a run that reaches the
      commit submits the committed ids followed by all the new ones. */
  predicate AttemptsInOrder(sv: Services, w: World, uri: string, committed: seq<BlockId>, chunks: seq<string>, r: Run)
  {
    var ids := IdsFrom(sv, w.nextId, |chunks|);
    && 1 <= |r.trace| <= |chunks| + 1
    && (forall k :: 0 <= k < |r.trace| - 1 ==> r.trace[k] == PutBlock(uri, ids[k], chunks[k]))
    && (r.trace[|r.trace| - 1].PutBlock? ==>
          && |r.trace| <= |chunks|
          && r.trace[|r.trace| - 1] == PutBlock(uri, ids[|r.trace| - 1], chunks[|r.trace| - 1])
          && r.world.nextId == w.nextId + |r.trace|)
    && (!r.trace[|r.trace| - 1].PutBlock? ==>
          && |r.trace| == |chunks| + 1
          && r.trace[|chunks|] == PutBlockList(uri, BlockListDoc(committed, ids))
          && r.world.nextId == w.nextId + |chunks|)
  }

  /** Lines 131-138 after the committed list has been read: upload every chunk,
      then submit the committed ids followed by the new ones. A failed call
      raises and ends the append; a rejected block list leaves the blob as it was. */
  function UploadAndCommit(sv: Services, w: World, uri: string, committed: seq<BlockId>, chunks: seq<string>): (r: Run)
    ensures |r.trace| >= 1 && RaisesOnRejection(sv, r)
    ensures forall k :: 0 <= k < |r.trace| - 1 ==> r.trace[k].PutBlock?
    ensures r.error.Some? ==> r.error == Some(TransportFailed)
    ensures r.error.Some? ==> BlobAt(r.world.store, uri).committed == BlobAt(w.store, uri).committed
    ensures forall v :: v != uri ==> BlobAt(r.world.store, v) == BlobAt(w.store, v)
    ensures r.error.None? ==>
              var ids := IdsFrom(sv, w.nextId, |chunks|);
              && |r.trace| == |chunks| + 1
              && (forall k :: 0 <= k < |chunks| ==> r.trace[k] == PutBlock(uri, ids[k], chunks[k]))
              && r.trace[|chunks|] == PutBlockList(uri, BlockListDoc(committed, ids))
              && r.world.nextId == w.nextId + |chunks|
  {
    var ids := IdsFrom(sv, w.nextId, |chunks|);
    var up := UploadChunks(sv, w.store, uri, ids, chunks);
    UploadKeepsCommitted(sv, w.store, uri, ids, chunks);
    var drawn := World(up.store, w.nextId + |up.trace|);
    if up.failed then Run(up.trace, drawn, Some(TransportFailed))
    else
      var doc := BlockListDoc(committed, ids);
      var put := PutBlockList(uri, doc);
      var stored := CommitBlockList(up.store, uri, doc);
      if !sv.accepts(put) || stored.None? then Run(up.trace + [put], drawn, Some(TransportFailed))
      else Run(up.trace + [put], World(stored.value, drawn.nextId), None)
  }

  /** The facts of `UploadChunks` the attempt lemmas below need. */
  predicate UploadedInOrder(uri: string, ids: seq<BlockId>, chunks: seq<string>, up: Upload)
  {
    && |ids| == |chunks|
    && (up.failed <==> up.uploaded < |chunks|)
    && |up.trace| == up.uploaded + (if up.failed then 1 else 0) <= |chunks|
    && (forall k :: 0 <= k < |up.trace| ==> up.trace[k] == PutBlock(uri, ids[k], chunks[k]))
  }

  /** Every upload-and-commit run, failed or not, attempts its calls in order. */
  lemma UploadAndCommitAttempts(sv: Services, w: World, uri: string, committed: seq<BlockId>, chunks: seq<string>)
    ensures AttemptsInOrder(sv, w, uri, committed, chunks, UploadAndCommit(sv, w, uri, committed, chunks))
  {
    var ids := IdsFrom(sv, w.nextId, |chunks|);
    var up := UploadChunks(sv, w.store, uri, ids, chunks);
    var drawn := World(up.store, w.nextId + |up.trace|);
    if up.failed {
      UploadStoppedAttempts(sv, w, uri, committed, chunks, up, drawn, Some(TransportFailed));
    } else {
      var doc := BlockListDoc(committed, ids);
      CommitReachedAttempts(sv, w, uri, committed, chunks, up, drawn.nextId, CommitBlockList(up.store, uri, doc), PutBlockList(uri, doc));
    }
  }

  lemma UploadStoppedAttempts(sv: Services, w: World, uri: string, committed: seq<BlockId>, chunks: seq<string>,
                              up: Upload, world: World, error: Option<Error>)
    requires UploadedInOrder(uri, IdsFrom(sv, w.nextId, |chunks|), chunks, up) && up.failed
    requires world.nextId == w.nextId + |up.trace|
    ensures AttemptsInOrder(sv, w, uri, committed, chunks, Run(up.trace, world, error))
  {
  }

  lemma CommitReachedAttempts(sv: Services, w: World, uri: string, committed: seq<BlockId>, chunks: seq<string>,
                              up: Upload, drawn: nat, stored: Option<Store>, put: Op)
    requires UploadedInOrder(uri, IdsFrom(sv, w.nextId, |chunks|), chunks, up) && !up.failed
    requires drawn == w.nextId + |up.trace|
    requires put == PutBlockList(uri, BlockListDoc(committed, IdsFrom(sv, w.nextId, |chunks|)))
    ensures AttemptsInOrder(sv, w, uri, committed, chunks, Run(up.trace + [put], World(up.store, drawn), Some(TransportFailed)))
    ensures stored.Some? ==> AttemptsInOrder(sv, w, uri, committed, chunks, Run(up.trace + [put], World(stored.value, drawn), None))
  {
    var t := up.trace + [put];
    assert t[|t| - 1] == put;
    assert forall k :: 0 <= k < |t| - 1 ==> t[k] == up.trace[k];
  }

  /** `append_blob`: nothing for an empty batch; otherwise read the committed
      list, upload the payload's chunks, then submit the committed ids followed
      by the new ones. Any failed call raises and ends the append. */
  function AppendBlob(sv: Services, w: World, uri: string, msgs: seq<Option<string>>): (r: Run)
    ensures |msgs| == 0 ==> r.trace == [] && r.world == w && r.error.None?
    ensures |msgs| > 0 ==> |r.trace| >= 1 && r.trace[0] == GetBlockList(uri)
    ensures RaisesOnRejection(sv, r)
    ensures r.error.Some? ==> r.error == Some(TransportFailed)
    ensures r.error.Some? ==> BlobAt(r.world.store, uri).committed == BlobAt(w.store, uri).committed
    ensures forall v :: v != uri ==> BlobAt(r.world.store, v) == BlobAt(w.store, v)
    ensures |msgs| > 0 && r.error.None? ==>
              var chunks := Chunks(Assemble(msgs));
              var ids := IdsFrom(sv, w.nextId, |chunks|);
              && |r.trace| == |chunks| + 2
              && (forall k :: 0 <= k < |chunks| ==> r.trace[k + 1] == PutBlock(uri, ids[k], chunks[k]))
              && r.trace[|chunks| + 1] == PutBlockList(uri, BlockListDoc(CommittedIds(w.store, uri), ids))
              && r.world.nextId == w.nextId + |chunks|
  {
    if |msgs| == 0 then Run([], w, None)
    else
      var get := GetBlockList(uri);
      if !sv.accepts(get) then Run([get], w, Some(TransportFailed))
      else
        var chunks := Chunks(Assemble(msgs));
        var rest := UploadAndCommit(sv, w, uri, CommittedIds(w.store, uri), chunks);
        var trace := [get] + rest.trace;
        ConsShifts(get, rest.trace);
        AcceptedFirst(sv, get, rest);
        Run(trace, rest.world, rest.error)
  }

  /** A delivered call in front of a run keeps how the run ends. */
  lemma AcceptedFirst(sv: Services, x: Op, r: Run)
    requires sv.accepts(x) && |r.trace| >= 1 && RaisesOnRejection(sv, r)
    ensures RaisesOnRejection(sv, Run([x] + r.trace, r.world, r.error))
  {
    var t := [x] + r.trace;
    assert t[|t| - 1] == r.trace[|r.trace| - 1];
  }

  /** The HTTP request `upload_block` sends for an upload in the trace. */
  function UploadRequest(op: Op): (req: Requests.PutRequest)
    requires op.PutBlock?
    ensures req.target == Requests.BlockTarget(op.uri, op.id) && req.body == op.chunk
    ensures Requests.HeaderValue(req.headers, "Content-Length").Some?
  {
    Requests.BlockPutRequest(op.uri, op.id, op.chunk)
  }

  /** The address a block-list call goes to: the blob's block-list
      sub-resource, read at line 147 and written at line 189. */
  function BlockListAddress(op: Op): (t: string)
    requires op.GetBlockList? || op.PutBlockList?
    ensures |t| > |op.uri| && t[..|op.uri|] == op.uri && t[|op.uri|..] == "&comp=blocklist"
  {
    Requests.BlockListTarget(op.uri)
  }

  /** An append reads the committed list from, and commits to, the block-list
      address of the blob it appends to. */
  lemma AppendBlobBlockListAddresses(sv: Services, w: World, uri: string, msgs: seq<Option<string>>)
    requires |msgs| > 0
    ensures var r := AppendBlob(sv, w, uri, msgs);
            && r.trace[0].GetBlockList?
            && BlockListAddress(r.trace[0]) == Requests.BlockListTarget(uri)
            && (r.error.None? ==>
                  && r.trace[|r.trace| - 1].PutBlockList?
                  && BlockListAddress(r.trace[|r.trace| - 1]) == Requests.BlockListTarget(uri))
  {
  }

  /** Every upload of a completed append is a PUT of its chunk to that block's
      address, whose Content-Length is `Integer#to_s` of the chunk's UTF-8 byte
      count (which reads back by `Requests.ContentLengthIsByteCount`), at most
      16,000,000. */
  lemma AppendBlobUploadRequests(sv: Services, w: World, uri: string, msgs: seq<Option<string>>)
    requires |msgs| > 0
    ensures var r := AppendBlob(sv, w, uri, msgs);
            var chunks := Chunks(Assemble(msgs));
            var ids := IdsFrom(sv, w.nextId, |chunks|);
            r.error.None? ==>
              forall k :: 0 <= k < |chunks| ==>
                && r.trace[k + 1].PutBlock?
                && UploadRequest(r.trace[k + 1]).target == Requests.BlockTarget(uri, ids[k])
                && UploadRequest(r.trace[k + 1]).body == chunks[k]
                && Requests.HeaderValue(UploadRequest(r.trace[k + 1]).headers, "Content-Length")
                   == Some(NatToString(Utf8Size(chunks[k])))
                && Utf8Size(chunks[k]) <= 4 * ChunkSize
  {
    var r := AppendBlob(sv, w, uri, msgs);
    var chunks := Chunks(Assemble(msgs));
    var ids := IdsFrom(sv, w.nextId, |chunks|);
    if r.error.None? {
      forall k | 0 <= k < |chunks|
        ensures r.trace[k + 1].PutBlock?
        ensures UploadRequest(r.trace[k + 1]).target == Requests.BlockTarget(uri, ids[k])
        ensures UploadRequest(r.trace[k + 1]).body == chunks[k]
        ensures Requests.HeaderValue(UploadRequest(r.trace[k + 1]).headers, "Content-Length")
                == Some(NatToString(Utf8Size(chunks[k])))
        ensures Utf8Size(chunks[k]) <= 4 * ChunkSize
      {
        UploadOfChunk(r.trace[k + 1], uri, ids[k], chunks[k]);
        ChunkByteBounds(Assemble(msgs), k);
      }
    }
  }

  lemma UploadOfChunk(op: Op, uri: string, id: BlockId, chunk: string)
    requires op == PutBlock(uri, id, chunk)
    ensures UploadRequest(op).target == Requests.BlockTarget(uri, id) && UploadRequest(op).body == chunk
    ensures Requests.HeaderValue(UploadRequest(op).headers, "Content-Length") == Some(NatToString(Utf8Size(chunk)))
  {
  }

  lemma ConsShifts<T>(x: T, s: seq<T>)
    ensures |[x] + s| == |s| + 1 && ([x] + s)[0] == x
    ensures forall k :: 0 <= k < |s| ==> ([x] + s)[k + 1] == s[k]
  {
  }

  /** The oracle never repeats a block id. */
  ghost predicate UniqueIds(sv: Services)
  {
    forall i, j :: i != j ==> sv.blockId(i) != sv.blockId(j)
  }

  /** No id still to be drawn is already committed at `uri`. */
  ghost predicate FreshAt(sv: Services, w: World, uri: string)
  {
    forall k :: k >= w.nextId ==> sv.blockId(k) !in CommittedIds(w.store, uri)
  }

  /** Every call is delivered. */
  ghost predicate Reliable(sv: Services)
  {
    forall op :: sv.accepts(op)
  }

  /** With a reliable transport and pairwise distinct ids, every chunk is
      uploaded and staged under its own id. */
  lemma {:induction false} UploadStages(sv: Services, store: Store, uri: string, ids: seq<BlockId>, chunks: seq<string>)
    requires Reliable(sv)
    requires |ids| == |chunks|
    requires forall i, j :: 0 <= i < j < |ids| ==> ids[i] != ids[j]
    ensures var u := UploadChunks(sv, store, uri, ids, chunks);
            && !u.failed
            && forall k :: 0 <= k < |chunks| ==>
                 ids[k] in BlobAt(u.store, uri).staged
                 && BlobAt(u.store, uri).staged[ids[k]] == chunks[k]
    decreases |chunks|
  {
    if |chunks| > 0 {
      var next := StageBlock(store, uri, ids[0], chunks[0]);
      assert sv.accepts(PutBlock(uri, ids[0], chunks[0]));
      assert forall i, j :: 0 <= i < j < |ids[1..]| ==> ids[1..][i] == ids[i + 1] && ids[1..][j] == ids[j + 1];
      UploadStages(sv, next, uri, ids[1..], chunks[1..]);
      var u := UploadChunks(sv, store, uri, ids, chunks);
      var rest := UploadChunks(sv, next, uri, ids[1..], chunks[1..]);
      assert u.store == rest.store && !u.failed;
      assert forall k :: 0 <= k < |ids[1..]| ==> ids[1..][k] != ids[0];
      StagedSurvives(sv, next, uri, ids[1..], chunks[1..], ids[0]);
      var staged := BlobAt(u.store, uri).staged;
      forall k | 0 <= k < |chunks|
        ensures ids[k] in staged && staged[ids[k]] == chunks[k]
      {
        if k > 0 {
          assert ids[k] == ids[1..][k - 1] && chunks[k] == chunks[1..][k - 1];
        }
      }
    }
  }

  /** A staged block whose id the remaining uploads do not use stays staged. */
  lemma {:induction false} StagedSurvives(sv: Services, store: Store, uri: string, ids: seq<BlockId>, chunks: seq<string>, id: BlockId)
    requires Reliable(sv)
    requires |ids| == |chunks|
    requires id in BlobAt(store, uri).staged
    requires forall k :: 0 <= k < |ids| ==> ids[k] != id
    ensures var u := UploadChunks(sv, store, uri, ids, chunks);
            id in BlobAt(u.store, uri).staged
            && BlobAt(u.store, uri).staged[id] == BlobAt(store, uri).staged[id]
    decreases |chunks|
  {
    if |chunks| > 0 {
      assert ids[0] != id;
      assert sv.accepts(PutBlock(uri, ids[0], chunks[0]));
      var next := StageBlock(store, uri, ids[0], chunks[0]);
      assert BlobAt(next, uri).staged[id] == BlobAt(store, uri).staged[id];
      assert forall k :: 0 <= k < |ids[1..]| ==> ids[1..][k] == ids[k + 1];
      StagedSurvives(sv, next, uri, ids[1..], chunks[1..], id);
      assert UploadChunks(sv, store, uri, ids, chunks).store == UploadChunks(sv, next, uri, ids[1..], chunks[1..]).store;
    }
  }

  /** Appending blocks whose ids are new and pairwise distinct keeps a blob consistent. */
  lemma ConsistentExtend(prev: seq<Block>, added: seq<Block>)
    requires Consistent(Blob(prev, map[]))
    requires forall i, j :: 0 <= i < j < |added| ==> added[i].id != added[j].id
    requires forall k :: 0 <= k < |added| ==> added[k].id !in BlockIds(prev)
    ensures Consistent(Blob(prev + added, map[]))
  {
    var all := prev + added;
    forall i, j | 0 <= i < |all| && 0 <= j < |all| && i != j && (i >= |prev| || j >= |prev|)
      ensures all[i].id != all[j].id
    {
      if i < |prev| {
        assert BlockIds(prev)[i] == all[i].id && all[j] == added[j - |prev|];
      } else if j < |prev| {
        assert BlockIds(prev)[j] == all[j].id && all[i] == added[i - |prev|];
      } else if i < j {
        assert all[i] == added[i - |prev|] && all[j] == added[j - |prev|];
      } else {
        assert all[j] == added[j - |prev|] && all[i] == added[i - |prev|];
      }
    }
    assert forall i, j :: 0 <= i < |prev| && 0 <= j < |prev| ==> all[i] == prev[i] && all[j] == prev[j];
  }

  /** The blocks a successful upload of `chunks` adds, ids drawn from `from` on. */
  function NewBlocks(sv: Services, from: nat, chunks: seq<string>): (blocks: seq<Block>)
    ensures |blocks| == |chunks|
    ensures forall k :: 0 <= k < |chunks| ==> blocks[k] == Block(sv.blockId(from + k), chunks[k])
    decreases |chunks|
  {
    if |chunks| == 0 then [] else [Block(sv.blockId(from), chunks[0])] + NewBlocks(sv, from + 1, chunks[1..])
  }

  lemma {:induction false} NewBlocksContents(sv: Services, from: nat, chunks: seq<string>)
    ensures Contents(NewBlocks(sv, from, chunks)) == Flatten(chunks)
    decreases |chunks|
  {
    if |chunks| > 0 {
      NewBlocksContents(sv, from + 1, chunks[1..]);
    }
  }

  /** With a reliable transport and never-repeating ids, the commit phase
      succeeds and the committed list becomes the old one followed by one new
      block per chunk, in chunk order. */
  lemma UploadAndCommitExtends(sv: Services, w: World, uri: string, chunks: seq<string>)
    requires Reliable(sv) && UniqueIds(sv)
    requires Consistent(BlobAt(w.store, uri))
    ensures var r := UploadAndCommit(sv, w, uri, CommittedIds(w.store, uri), chunks);
            && r.error.None?
            && BlobAt(r.world.store, uri).committed == BlobAt(w.store, uri).committed + NewBlocks(sv, w.nextId, chunks)
  {
    var ids := IdsFrom(sv, w.nextId, |chunks|);
    IdsFromDistinct(sv, w.nextId, |chunks|);
    UploadStages(sv, w.store, uri, ids, chunks);
    var up := UploadChunks(sv, w.store, uri, ids, chunks);
    UploadKeepsCommitted(sv, w.store, uri, ids, chunks);
    var b := BlobAt(up.store, uri);
    assert b.committed == BlobAt(w.store, uri).committed;
    CommitAppendsStaged(up.store, uri, ids);
    var doc := BlockListDoc(CommittedIds(w.store, uri), ids);
    assert sv.accepts(PutBlockList(uri, doc));
    StagedAreNew(b, sv, w.nextId, chunks);
  }

  lemma IdsFromDistinct(sv: Services, from: nat, n: nat)
    requires UniqueIds(sv)
    ensures forall i, j :: 0 <= i < j < n ==> IdsFrom(sv, from, n)[i] != IdsFrom(sv, from, n)[j]
  {
    var ids := IdsFrom(sv, from, n);
    forall i, j | 0 <= i < j < n
      ensures ids[i] != ids[j]
    {
      assert ids[i] == sv.blockId(from + i) && ids[j] == sv.blockId(from + j);
    }
  }

  /** Chunks staged under consecutive drawn ids are the blocks `NewBlocks` describes. */
  lemma StagedAreNew(b: Blob, sv: Services, from: nat, chunks: seq<string>)
    requires forall k :: 0 <= k < |chunks| ==>
               IdsFrom(sv, from, |chunks|)[k] in b.staged && b.staged[IdsFrom(sv, from, |chunks|)[k]] == chunks[k]
    ensures StagedBlocks(b, IdsFrom(sv, from, |chunks|)) == NewBlocks(sv, from, chunks)
  {
    var ids := IdsFrom(sv, from, |chunks|);
    var staged, added := StagedBlocks(b, ids), NewBlocks(sv, from, chunks);
    assert forall k :: 0 <= k < |chunks| ==> staged[k] == added[k];
  }

  /** The ids of the new blocks are pairwise distinct and not yet committed. */
  lemma NewBlocksFresh(sv: Services, w: World, uri: string, chunks: seq<string>)
    requires UniqueIds(sv) && FreshAt(sv, w, uri)
    ensures var added := NewBlocks(sv, w.nextId, chunks);
            && (forall i, j :: 0 <= i < j < |added| ==> added[i].id != added[j].id)
            && (forall k :: 0 <= k < |added| ==> added[k].id !in CommittedIds(w.store, uri))
  {
    var added := NewBlocks(sv, w.nextId, chunks);
    forall i, j | 0 <= i < j < |added|
      ensures added[i].id != added[j].id
    {
      assert added[i].id == sv.blockId(w.nextId + i) && added[j].id == sv.blockId(w.nextId + j);
    }
    forall k | 0 <= k < |added|
      ensures added[k].id !in CommittedIds(w.store, uri)
    {
      assert added[k].id == sv.blockId(w.nextId + k);
    }
  }

  /** The append round trip: with a reliable transport and never-repeating
      fresh ids, an append to a consistent blob succeeds, the blob's content
      becomes its old content followed by the assembled payload, and the blob
      is left consistent with the ids still to be drawn still fresh. */
  lemma {:induction false} AppendBlobAppends(sv: Services, w: World, uri: string, msgs: seq<Option<string>>)
    requires Reliable(sv) && UniqueIds(sv)
    requires FreshAt(sv, w, uri)
    requires Consistent(BlobAt(w.store, uri))
    ensures var r := AppendBlob(sv, w, uri, msgs);
            && r.error.None?
            && Content(r.world.store, uri) == Content(w.store, uri) + Assemble(msgs)
            && Consistent(BlobAt(r.world.store, uri))
            && FreshAt(sv, r.world, uri)
  {
    if |msgs| > 0 {
      AppendBlobCommits(sv, w, uri, msgs);
      ExtendedBlob(sv, w, AppendBlob(sv, w, uri, msgs).world, uri, Chunks(Assemble(msgs)));
    }
  }

  /** A blob extended by freshly drawn blocks: its content grows by the chunks,
      and it stays consistent with the ids still to be drawn still fresh. */
  lemma ExtendedBlob(sv: Services, w: World, w': World, uri: string, chunks: seq<string>)
    requires UniqueIds(sv) && FreshAt(sv, w, uri)
    requires Consistent(BlobAt(w.store, uri))
    requires BlobAt(w'.store, uri).committed == BlobAt(w.store, uri).committed + NewBlocks(sv, w.nextId, chunks)
    requires w'.nextId == w.nextId + |chunks|
    ensures Content(w'.store, uri) == Content(w.store, uri) + Flatten(chunks)
    ensures Consistent(BlobAt(w'.store, uri))
    ensures FreshAt(sv, w', uri)
  {
    var prev := BlobAt(w.store, uri).committed;
    var added := NewBlocks(sv, w.nextId, chunks);
    ExtendedContent(prev, added, sv, w.nextId, chunks);
    NewBlocksFresh(sv, w, uri, chunks);
    assert Consistent(Blob(prev, map[]));
    ConsistentExtend(prev, added);
    FreshAfterAppend(sv, w, w', uri, added);
  }

  /** The commit a successful append performs. */
  lemma {:induction false} AppendBlobCommits(sv: Services, w: World, uri: string, msgs: seq<Option<string>>)
    requires Reliable(sv) && UniqueIds(sv)
    requires Consistent(BlobAt(w.store, uri))
    requires |msgs| > 0
    ensures var r := AppendBlob(sv, w, uri, msgs);
            var chunks := Chunks(Assemble(msgs));
            && r.error.None?
            && BlobAt(r.world.store, uri).committed == BlobAt(w.store, uri).committed + NewBlocks(sv, w.nextId, chunks)
            && r.world.nextId == w.nextId + |chunks|
  {
    assert sv.accepts(GetBlockList(uri));
    UploadAndCommitExtends(sv, w, uri, Chunks(Assemble(msgs)));
  }

  lemma ExtendedContent(prev: seq<Block>, added: seq<Block>, sv: Services, from: nat, chunks: seq<string>)
    requires added == NewBlocks(sv, from, chunks)
    ensures Contents(prev + added) == Contents(prev) + Flatten(chunks)
  {
    NewBlocksContents(sv, from, chunks);
    ContentsAppend(prev, added);
  }

  lemma FreshAfterAppend(sv: Services, w: World, w': World, uri: string, added: seq<Block>)
    requires UniqueIds(sv)
    requires FreshAt(sv, w, uri)
    requires w'.nextId == w.nextId + |added|
    requires forall k :: 0 <= k < |added| ==> added[k].id == sv.blockId(w.nextId + k)
    requires BlobAt(w'.store, uri).committed == BlobAt(w.store, uri).committed + added
    ensures FreshAt(sv, w', uri)
  {
    var prev := BlobAt(w.store, uri).committed;
    BlockIdsAppend(prev, added);
    forall k | k >= w'.nextId
      ensures sv.blockId(k) !in CommittedIds(w'.store, uri)
    {
      assert sv.blockId(k) !in BlockIds(prev);
      forall i | 0 <= i < |added|
        ensures BlockIds(added)[i] != sv.blockId(k)
      {
        assert BlockIds(added)[i] == sv.blockId(w.nextId + i);
      }
    }
  }

  lemma BlockIdsAppend(a: seq<Block>, b: seq<Block>)
    ensures BlockIds(a + b) == BlockIds(a) + BlockIds(b)
  {
    assert forall i :: 0 <= i < |a + b| ==> BlockIds(a + b)[i] == (BlockIds(a) + BlockIds(b))[i];
  }

  /** Two successive appends to one blob leave the same content as one append
      of both batches. */
  lemma {:induction false} AppendsCompose(sv: Services, w: World, uri: string, first: seq<Option<string>>, second: seq<Option<string>>)
    requires Reliable(sv) && UniqueIds(sv)
    requires FreshAt(sv, w, uri)
    requires Consistent(BlobAt(w.store, uri))
    ensures var mid := AppendBlob(sv, w, uri, first).world;
            Content(AppendBlob(sv, mid, uri, second).world.store, uri)
            == Content(w.store, uri) + Assemble(first + second)
  {
    var r1 := AppendBlob(sv, w, uri, first);
    AppendBlobAppends(sv, w, uri, first);
    AppendBlobAppends(sv, r1.world, uri, second);
    var c2 := Content(AppendBlob(sv, r1.world, uri, second).world.store, uri);
    ConcatBatches(Content(w.store, uri), c2, first, second);
  }

  lemma ConcatBatches(c0: string, c2: string, first: seq<Option<string>>, second: seq<Option<string>>)
    requires c2 == c0 + Assemble(first) + Assemble(second)
    ensures c2 == c0 + Assemble(first + second)
  {
    AssembleAppend(first, second);
  }
}

=== FILE: requests.dfy ===
/** The storage requests the plugin builds: request targets derived from the
    blob's SAS URI, and `create_blob_put_request`'s headers. */
module Requests {
  import opened Types
  import opened Text
  import opened BlockList

  datatype Header = Header(name: string, value: string)

  datatype PutRequest = PutRequest(target: string, headers: seq<Header>, body: string)

  /** The value of the first header called `name`, if any. */
  function HeaderValue(headers: seq<Header>, name: string): Option<string>
  {
    if |headers| == 0 then None
    else if headers[0].name == name then Some(headers[0].value)
    else HeaderValue(headers[1..], name)
  }

  /** The block-list sub-resource of a blob, read by `get_committed_blocks` and
      written by `commit_blocks`. */
  function BlockListTarget(uri: string): (t: string)
    ensures |t| > |uri| && t[..|uri|] == uri && t[|uri|..] == "&comp=blocklist"
  {
    uri + "&comp=blocklist"
  }

  /** The address one block is uploaded to. */
  function BlockTarget(uri: string, id: BlockId): (t: string)
    ensures |t| > |uri| + |id|
    ensures t[..|uri|] == uri && t[|t| - |id|..] == id
  {
    uri + "&comp=block&blockid=" + id
  }

  /** `create_blob_put_request`: an octet-stream PUT whose Content-Length is the
      body's size in UTF-8 bytes, written as `Integer#to_s` writes it. */
  function BlobPutRequest(target: string, msg: string): (r: PutRequest)
    ensures r.target == target && r.body == msg
    ensures HeaderValue(r.headers, "Content-Type") == Some("application/octet-stream")
    ensures HeaderValue(r.headers, "Content-Length").Some?
  {
    PutRequest(target,
               [Header("Content-Type", "application/octet-stream"),
                Header("Content-Length", NatToString(Utf8Size(msg)))],
               msg)
  }

  /** The Content-Length header is the decimal numeral of the body's byte count,
      which is at least its character count and at most four times it. */
  lemma ContentLengthIsByteCount(target: string, msg: string)
    ensures var v := HeaderValue(BlobPutRequest(target, msg).headers, "Content-Length").value;
            (forall i :: 0 <= i < |v| ==> IsDigit(v[i]))
            && DecimalValue(v) == Utf8Size(msg)
            && |msg| <= DecimalValue(v) <= 4 * |msg|
  {
    DecimalValueOfNatToString(Utf8Size(msg));
    Utf8SizeBounds(msg);
  }

  /** One uploaded block's request. */
  function BlockPutRequest(uri: string, id: BlockId, chunk: string): (r: PutRequest)
    ensures r.target == BlockTarget(uri, id) && r.body == chunk
    ensures HeaderValue(r.headers, "Content-Type") == Some("application/octet-stream")
    ensures HeaderValue(r.headers, "Content-Length").Some?
  {
    BlobPutRequest(BlockTarget(uri, id), chunk)
  }
}

=== FILE: routing.dfy ===
/** Tag classification of `handle_records`: a period-separated tag becomes a
    container type, a data type, an optional custom type and an optional
    time-bucketed suffix. */
module Routing {
  import opened Types
  import opened Text

  /** The UTC clock reading `Time.now.utc` supplies. */
  datatype UtcTime = UtcTime(year: nat, month: nat, day: nat, hour: nat)

  predicate PlausibleTime(t: UtcTime)
  {
    t.year <= 9999 && 1 <= t.month <= 12 && 1 <= t.day <= 31 && t.hour < 24
  }

  /** `strftime("d=%Y%m%d/h=%H/")`. */
  function TimePrefix(t: UtcTime): (p: string)
    ensures |p| >= 16 && p[..2] == "d=" && p[|p| - 1] == '/'
  {
    "d=" + ZeroPad(t.year, 4) + ZeroPad(t.month, 2) + ZeroPad(t.day, 2) + "/h=" + ZeroPad(t.hour, 2) + "/"
  }

  /** For a clock reading in range the prefix has a fixed 16-character layout from
      which the date and hour read back. */
  lemma TimePrefixLayout(t: UtcTime)
    requires PlausibleTime(t)
    ensures var p := TimePrefix(t);
            && |p| == 16
            && p[10..13] == "/h=" && p[15] == '/'
            && (forall i :: 2 <= i < 10 || 13 <= i < 15 ==> IsDigit(p[i]))
            && DecimalValue(p[2..6]) == t.year
            && DecimalValue(p[6..8]) == t.month
            && DecimalValue(p[8..10]) == t.day
            && DecimalValue(p[13..15]) == t.hour
  {
    var ys, ms, ds, hs := ZeroPad(t.year, 4), ZeroPad(t.month, 2), ZeroPad(t.day, 2), ZeroPad(t.hour, 2);
    PaddedWidths(t);
    var p := "d=" + ys + ms + ds + "/h=" + hs + "/";
    assert p == TimePrefix(t);
    assert p[2..6] == ys;
    assert p[6..8] == ms;
    assert p[8..10] == ds;
    assert p[10..13] == "/h=";
    assert p[13..15] == hs;
    forall i | 2 <= i < 10 || 13 <= i < 15
      ensures IsDigit(p[i])
    {
      if i < 6 {
        assert p[i] == ys[i - 2];
      } else if i < 8 {
        assert p[i] == ms[i - 6];
      } else if i < 10 {
        assert p[i] == ds[i - 8];
      } else {
        assert p[i] == hs[i - 13];
      }
    }
  }

  /** In range, every field fills exactly its width. */
  lemma PaddedWidths(t: UtcTime)
    requires PlausibleTime(t)
    ensures |ZeroPad(t.year, 4)| == 4 && |ZeroPad(t.month, 2)| == 2
    ensures |ZeroPad(t.day, 2)| == 2 && |ZeroPad(t.hour, 2)| == 2
  {
    assert Pow10(2) == 100;
    assert Pow10(4) == 10000;
    NumeralLength(t.year, 4);
    NumeralLength(t.month, 2);
    NumeralLength(t.day, 2);
    NumeralLength(t.hour, 2);
  }

  function Pow10(k: nat): nat
  {
    if k == 0 then 1 else 10 * Pow10(k - 1)
  }

  lemma {:induction false} NumeralLength(n: nat, k: nat)
    requires n < Pow10(k)
    ensures |NatToString(n)| <= if k == 0 then 1 else k
    decreases n
  {
    if n >= 10 {
      NumeralLength(n / 10, k - 1);
    }
  }

  /** What `handle_records` derives from a tag. Every field may be nil. */
  datatype Classification = Classification(
    containerType: Option<string>,
    dataType: Option<string>,
    customType: Option<string>,
    suffix: Option<string>)

  /** `suffix << "#{s}."` for every segment. */
  function DotTerminated(segments: seq<string>): string
  {
    if |segments| == 0 then "" else segments[0] + "." + DotTerminated(segments[1..])
  }

  /** Ruby's `s[0..-2]`. */
  function DropLast(s: string): string
  {
    if |s| == 0 then "" else s[..|s| - 1]
  }

  /** The suffix as built: prefix, each remaining segment with a period after it,
      then the last character removed. */
  function SuffixAsWritten(prefix: string, rest: seq<string>): string
  {
    DropLast(prefix + DotTerminated(rest))
  }

  lemma {:induction false} DotTerminatedJoin(segments: seq<string>)
    requires |segments| > 0
    ensures DotTerminated(segments) == Join(segments, ".") + "."
    decreases |segments|
  {
    if |segments| > 1 {
      DotTerminatedJoin(segments[1..]);
    } else {
      assert segments[1..] == [];
    }
  }

  /** With at least one remaining segment the suffix is the prefix followed by
      the segments joined with periods; with none, the last removed character is
      the prefix's own final slash. */
  lemma {:induction false} SuffixAsWrittenSpec(prefix: string, rest: seq<string>)
    ensures |rest| > 0 ==> SuffixAsWritten(prefix, rest) == prefix + Join(rest, ".")
    ensures |rest| == 0 ==> SuffixAsWritten(prefix, rest) == DropLast(prefix)
  {
    if |rest| > 0 {
      DotTerminatedJoin(rest);
      var s := prefix + Join(rest, ".") + ".";
      assert s[..|s| - 1] == prefix + Join(rest, ".");
    } else {
      assert prefix + DotTerminated(rest) == prefix;
    }
  }

  /** Lines 200-228 as written. The custom branch tests the tag's CHARACTER count
      (`tag.size >= 6`), and with fewer than four segments nothing is assigned,
      so every field stays nil and processing carries on. */
  function ClassifyTag(tag: string, now: UtcTime): Result<Classification>
  {
    var tags := RubySplit(tag);
    if |tags| >= 4 then
      if |tag| >= 6 then
        if |tags| < 5 then Err(NilSuffixSegments)
        else Ok(Classification(Some(tags[2]), Some(tags[3]), Some(tags[4]),
                               Some(SuffixAsWritten(TimePrefix(now), tags[5..]))))
      else Ok(Classification(Some(tags[2]), Some(tags[3]), None, None))
    else Ok(Classification(None, None, None, None))
  }

  /** What each segment count makes of a tag, in terms of its segments. */
  lemma ClassifyTagSpec(tag: string, now: UtcTime)
    ensures var tags := RubySplit(tag);
            var r := ClassifyTag(tag, now);
            && (r.Err? <==> |tags| == 4 && |tag| >= 6)
            && (r.Err? ==> r.error == NilSuffixSegments)
            && (|tags| < 4 ==> r == Ok(Classification(None, None, None, None)))
            && (r.Ok? && |tags| >= 4 ==>
                  r.value.containerType == Some(tags[2]) && r.value.dataType == Some(tags[3]))
            && (r.Ok? ==> (r.value.customType.Some? <==> |tags| >= 5 && |tag| >= 6))
            && (r.Ok? ==> (r.value.suffix.Some? <==> |tags| >= 5 && |tag| >= 6))
            && (|tags| >= 5 && |tag| >= 6 ==> r.Ok? && r.value.customType == Some(tags[4]))
            && (|tags| >= 6 ==> r.Ok? && r.value.suffix == Some(TimePrefix(now) + Join(tags[5..], ".")))
            && (|tags| == 5 && |tag| >= 6 ==> r.Ok? && r.value.suffix == Some(DropLast(TimePrefix(now))))
  {
    var tags := RubySplit(tag);
    SegmentsAtMostLength(tag);
    if |tags| >= 5 {
      SuffixAsWrittenSpec(TimePrefix(now), tags[5..]);
    }
  }

  /** The classification the comments describe: the custom branch
      needs six SEGMENTS, and a tag of fewer than four is a routing error. */
  function ClassifyTagBySegments(tag: string, now: UtcTime): (r: Result<Classification>)
    ensures r.Err? <==> |RubySplit(tag)| < 4
    ensures r.Ok? ==> (r.value.customType.Some? <==> |RubySplit(tag)| >= 6)
  {
    var tags := RubySplit(tag);
    if |tags| < 4 then Err(RoutingError)
    else if |tags| >= 6 then
      Ok(Classification(Some(tags[2]), Some(tags[3]), Some(tags[4]),
                        Some(TimePrefix(now) + Join(tags[5..], "."))))
    else Ok(Classification(Some(tags[2]), Some(tags[3]), None, None))
  }

  /** Both readings agree on every tag of six or more segments. */
  lemma ClassifyAgreesFromSixSegments(tag: string, now: UtcTime)
    requires |RubySplit(tag)| >= 6
    ensures ClassifyTag(tag, now) == ClassifyTagBySegments(tag, now)
  {
    SegmentsAtMostLength(tag);
    SuffixAsWrittenSpec(TimePrefix(now), RubySplit(tag)[5..]);
  }

  /** Joining `n` non-empty fields with one-character separators gives at least
      `2n - 1` characters. */
  lemma {:induction false} JoinNonEmptyLength(parts: seq<string>)
    requires forall i :: 0 <= i < |parts| ==> parts[i] != ""
    ensures |parts| > 0 ==> |Join(parts, ".")| >= 2 * |parts| - 1
    decreases |parts|
  {
    if |parts| > 1 {
      JoinNonEmptyLength(parts[1..]);
    }
  }

  /** Every tag of four non-empty dot-free segments is at least seven characters
      long, so it takes the custom branch and fails on the missing fifth segment,
      where the segment-count reading gives the third and fourth segments as
      container and data type. "oms.blob.ctype.dtype" is one such tag. */
  lemma {:induction false} FourSegmentTagFails(segments: seq<string>, now: UtcTime)
    requires |segments| == 4
    requires forall i :: 0 <= i < |segments| ==> NoDot(segments[i]) && segments[i] != ""
    ensures ClassifyTag(Join(segments, "."), now) == Err(NilSuffixSegments)
    ensures ClassifyTagBySegments(Join(segments, "."), now)
            == Ok(Classification(Some(segments[2]), Some(segments[3]), None, None))
  {
    RubySplitJoin(segments);
    JoinNonEmptyLength(segments);
  }

  /** A tag of five non-empty dot-free segments takes the custom branch; its
      suffix is the time prefix without its final slash. */
  lemma FiveSegmentSuffixLosesSlash(segments: seq<string>, now: UtcTime)
    requires |segments| == 5
    requires forall i :: 0 <= i < |segments| ==> NoDot(segments[i]) && segments[i] != ""
    ensures ClassifyTag(Join(segments, "."), now)
            == Ok(Classification(Some(segments[2]), Some(segments[3]), Some(segments[4]),
                                 Some(DropLast(TimePrefix(now)))))
  {
    RubySplitJoin(segments);
    JoinNonEmptyLength(segments);
    assert segments[5..] == [];
    SuffixAsWrittenSpec(TimePrefix(now), []);
  }

  /** A tag joined from six or more dot-free segments, the last not empty (a
      custom-log tag `oms.blob.<container>.<data>.<custom>.<file>...`): the
      custom type is the fifth segment and the suffix is the time prefix followed
      by segments six onward joined with periods. */
  lemma {:induction false} CustomLogTag(segments: seq<string>, now: UtcTime)
    requires |segments| >= 6
    requires forall i :: 0 <= i < |segments| ==> NoDot(segments[i])
    requires segments[|segments| - 1] != ""
    ensures ClassifyTag(Join(segments, "."), now)
            == Ok(Classification(Some(segments[2]), Some(segments[3]), Some(segments[4]),
                                 Some(TimePrefix(now) + Join(segments[5..], "."))))
  {
    RubySplitJoin(segments);
    ClassifyAgreesFromSixSegments(Join(segments, "."), now);
  }

  /** A tag of fewer than four dot-free segments (such as "oms.blob") is only
      logged: classification yields four nils, where the segment-count reading
      reports a routing error. */
  lemma {:induction false} ShortTagFallsThrough(segments: seq<string>, now: UtcTime)
    requires |segments| < 4
    requires forall i :: 0 <= i < |segments| ==> NoDot(segments[i])
    requires |segments| > 0 ==> segments[|segments| - 1] != ""
    ensures ClassifyTag(Join(segments, "."), now) == Ok(Classification(None, None, None, None))
    ensures ClassifyTagBySegments(Join(segments, "."), now) == Err(RoutingError)
  {
    RubySplitJoin(segments);
  }
}

=== FILE: storage.dfy ===
/** The append-blob storage service the plugin talks to, reduced to what the
    protocol relies on: a blob's visible content is its committed block list;
    Put Block stages an uncommitted block; Put Block List replaces the committed
    list by the submitted one, resolving `Committed` entries against the current
    committed blocks and `Uncommitted` entries against the staged ones, and
    discards the remaining staged blocks. */
module Storage {
  import opened Types
  import opened Text
  import opened BlockList

  datatype Block = Block(id: BlockId, data: string)

  datatype Blob = Blob(committed: seq<Block>, staged: map<BlockId, string>)

  /** Blobs by SAS URI. A URI that is absent names a blob that does not exist yet. */
  type Store = map<string, Blob>

  function BlobAt(store: Store, uri: string): Blob
  {
    if uri in store then store[uri] else Blob([], map[])
  }

  /** The ids of a block sequence, in order. */
  function BlockIds(blocks: seq<Block>): (ids: seq<BlockId>)
    ensures |ids| == |blocks|
    ensures forall i :: 0 <= i < |blocks| ==> ids[i] == blocks[i].id
  {
    seq(|blocks|, i requires 0 <= i < |blocks| => blocks[i].id)
  }

  /** The bytes of a block sequence, in order. */
  function Contents(blocks: seq<Block>): string
  {
    if |blocks| == 0 then "" else blocks[0].data + Contents(blocks[1..])
  }

  lemma {:induction false} ContentsAppend(a: seq<Block>, b: seq<Block>)
    ensures Contents(a + b) == Contents(a) + Contents(b)
    decreases |a|
  {
    if |a| == 0 {
      assert a + b == b;
    } else {
      assert (a + b)[1..] == a[1..] + b;
      ContentsAppend(a[1..], b);
    }
  }

  /** The visible content of the blob at `uri`. */
  function Content(store: Store, uri: string): string
  {
    Contents(BlobAt(store, uri).committed)
  }

  /** The ids a block-list read reports as committed (empty for a missing blob). */
  function CommittedIds(store: Store, uri: string): seq<BlockId>
  {
    BlockIds(BlobAt(store, uri).committed)
  }

  /** Equal ids in the committed list carry equal data. */
  ghost predicate Consistent(b: Blob)
  {
    forall i, j :: 0 <= i < |b.committed| && 0 <= j < |b.committed| && b.committed[i].id == b.committed[j].id
      ==> b.committed[i].data == b.committed[j].data
  }

  /** Put Block: stage `data` under `id`, leaving the committed list alone. */
  function StageBlock(store: Store, uri: string, id: BlockId, data: string): (s: Store)
    ensures BlobAt(s, uri).committed == BlobAt(store, uri).committed
    ensures BlobAt(s, uri).staged == BlobAt(store, uri).staged[id := data]
    ensures forall v :: v != uri ==> BlobAt(s, v) == BlobAt(store, v)
  {
    var b := BlobAt(store, uri);
    store[uri := b.(staged := b.staged[id := data])]
  }

  /** The data of the first committed block called `id`. */
  function Lookup(blocks: seq<Block>, id: BlockId): Option<string>
  {
    if |blocks| == 0 then None
    else if blocks[0].id == id then Some(blocks[0].data)
    else Lookup(blocks[1..], id)
  }

  function ResolveEntry(b: Blob, e: Entry): Option<Block>
  {
    match e
    case Committed(id) =>
      (match Lookup(b.committed, id)
       case None => None
       case Some(data) => Some(Block(id, data)))
    case Uncommitted(id) =>
      if id in b.staged then Some(Block(id, b.staged[id])) else None
  }

  /** The blocks a submitted list names, or None when one of them cannot be found. */
  function ResolveAll(b: Blob, doc: seq<Entry>): Option<seq<Block>>
  {
    if |doc| == 0 then Some([])
    else
      var head := ResolveEntry(b, doc[0]);
      var rest := ResolveAll(b, doc[1..]);
      if head.Some? && rest.Some? then Some([head.value] + rest.value) else None
  }

  /** Put Block List. */
  function CommitBlockList(store: Store, uri: string, doc: seq<Entry>): (r: Option<Store>)
    ensures r.Some? ==> forall v :: v != uri ==> BlobAt(r.value, v) == BlobAt(store, v)
  {
    match ResolveAll(BlobAt(store, uri), doc)
    case None => None
    case Some(blocks) => Some(store[uri := Blob(blocks, map[])])
  }

  lemma {:induction false} ResolveAllAppend(b: Blob, d1: seq<Entry>, d2: seq<Entry>)
    requires ResolveAll(b, d1).Some? && ResolveAll(b, d2).Some?
    ensures ResolveAll(b, d1 + d2) == Some(ResolveAll(b, d1).value + ResolveAll(b, d2).value)
    decreases |d1|
  {
    if |d1| == 0 {
      assert d1 + d2 == d2;
      assert ResolveAll(b, d1).value == [];
      assert [] + ResolveAll(b, d2).value == ResolveAll(b, d2).value;
    } else {
      var d := d1 + d2;
      assert d[0] == d1[0];
      assert d[1..] == d1[1..] + d2;
      ResolveAllAppend(b, d1[1..], d2);
      var head := ResolveEntry(b, d1[0]).value;
      var r1 := ResolveAll(b, d1[1..]).value;
      var r2 := ResolveAll(b, d2).value;
      assert ResolveAll(b, d) == Some([head] + (r1 + r2));
      assert [head] + (r1 + r2) == ([head] + r1) + r2;
    }
  }

  lemma {:induction false} LookupFinds(blocks: seq<Block>, i: nat)
    requires i < |blocks|
    requires forall j :: 0 <= j < i && blocks[j].id == blocks[i].id ==> blocks[j].data == blocks[i].data
    ensures Lookup(blocks, blocks[i].id) == Some(blocks[i].data)
    decreases i
  {
    if i > 0 && blocks[0].id != blocks[i].id {
      LookupFinds(blocks[1..], i - 1);
    }
  }

  /** Re-listing a consistent committed list as `Committed` entries resolves to
      exactly the committed blocks. */
  lemma {:induction false} ResolveCommitted(b: Blob, prefix: nat)
    requires Consistent(b)
    requires prefix <= |b.committed|
    ensures ResolveAll(b, BlockListDoc(BlockIds(b.committed[..prefix]), [])) == Some(b.committed[..prefix])
    decreases prefix
  {
    if prefix > 0 {
      var i := prefix - 1;
      ResolveCommitted(b, i);
      var front := BlockListDoc(BlockIds(b.committed[..i]), []);
      var last := [Committed(b.committed[i].id)];
      CommittedDocSnoc(b.committed, i);
      ResolveOneCommitted(b, i);
      ResolveAllAppend(b, front, last);
      assert b.committed[..prefix] == b.committed[..i] + [b.committed[i]];
    } else {
      assert BlockListDoc(BlockIds(b.committed[..0]), []) == [];
    }
  }

  lemma CommittedDocSnoc(blocks: seq<Block>, i: nat)
    requires i < |blocks|
    ensures BlockListDoc(BlockIds(blocks[..i + 1]), [])
            == BlockListDoc(BlockIds(blocks[..i]), []) + [Committed(blocks[i].id)]
  {
    var a := BlockListDoc(BlockIds(blocks[..i + 1]), []);
    var c := BlockListDoc(BlockIds(blocks[..i]), []) + [Committed(blocks[i].id)];
    assert |a| == |c|;
    forall k | 0 <= k < |a|
      ensures a[k] == c[k]
    {
      assert a[k] == Committed(blocks[k].id);
    }
  }

  lemma ResolveOneCommitted(b: Blob, i: nat)
    requires Consistent(b)
    requires i < |b.committed|
    ensures ResolveAll(b, [Committed(b.committed[i].id)]) == Some([b.committed[i]])
  {
    var last := [Committed(b.committed[i].id)];
    LookupFinds(b.committed, i);
    assert last[1..] == [];
    assert ResolveAll(b, last[1..]) == Some([]);
    assert ResolveEntry(b, last[0]) == Some(b.committed[i]);
    assert [b.committed[i]] + [] == [b.committed[i]];
  }

  /** The staged blocks `ids` name, in the order named. */
  function StagedBlocks(b: Blob, ids: seq<BlockId>): (blocks: seq<Block>)
    requires forall k :: 0 <= k < |ids| ==> ids[k] in b.staged
    ensures |blocks| == |ids|
    ensures forall k :: 0 <= k < |ids| ==> blocks[k] == Block(ids[k], b.staged[ids[k]])
  {
    if |ids| == 0 then [] else [Block(ids[0], b.staged[ids[0]])] + StagedBlocks(b, ids[1..])
  }

  /** Listing staged ids as `Uncommitted` entries resolves to their staged data. */
  lemma {:induction false} ResolveStaged(b: Blob, ids: seq<BlockId>)
    requires forall k :: 0 <= k < |ids| ==> ids[k] in b.staged
    ensures ResolveAll(b, BlockListDoc([], ids)) == Some(StagedBlocks(b, ids))
    decreases |ids|
  {
    var doc := BlockListDoc([], ids);
    if |ids| > 0 {
      ResolveStaged(b, ids[1..]);
      assert doc[0] == Uncommitted(ids[0]);
      assert doc[1..] == BlockListDoc([], ids[1..]);
    } else {
      assert doc == [];
    }
  }

  /** Re-listing the committed ids and then staged ids resolves to the
      committed blocks followed by the staged ones. */
  lemma {:induction false} ResolveCommittedThenStaged(b: Blob, ids: seq<BlockId>)
    requires Consistent(b)
    requires forall k :: 0 <= k < |ids| ==> ids[k] in b.staged
    ensures ResolveAll(b, BlockListDoc(BlockIds(b.committed), ids)) == Some(b.committed + StagedBlocks(b, ids))
  {
    var c := BlockIds(b.committed);
    var front := BlockListDoc(c, []);
    var back := BlockListDoc([], ids);
    ResolveCommitted(b, |b.committed|);
    assert b.committed[..|b.committed|] == b.committed;
    ResolveStaged(b, ids);
    ResolveAllAppend(b, front, back);
    assert front + back == BlockListDoc(c, ids);
  }

  /** Committing the committed ids followed by staged ids keeps the old content
      and appends the staged data, in list order. */
  lemma {:induction false} CommitAppendsStaged(store: Store, uri: string, ids: seq<BlockId>)
    requires Consistent(BlobAt(store, uri))
    requires forall k :: 0 <= k < |ids| ==> ids[k] in BlobAt(store, uri).staged
    ensures var b := BlobAt(store, uri);
            var r := CommitBlockList(store, uri, BlockListDoc(CommittedIds(store, uri), ids));
            && r.Some?
            && BlobAt(r.value, uri).committed == b.committed + StagedBlocks(b, ids)
            && BlobAt(r.value, uri).staged == map[]
  {
    ResolveCommittedThenStaged(BlobAt(store, uri), ids);
  }
}

=== FILE: text.dfy ===
/** Ruby string operations the plugin relies on: concatenation of a list of
    strings, `join`, `split('.')`, `Integer#to_s`, zero padding and `bytesize`. */
module Text {
  import opened Types

  /** `x.to_s`, or Ruby string interpolation `"#{x}"`: nil reads as the empty string. */
  function Interpolated(x: Option<string>): string
  {
    match x
    case None => ""
    case Some(s) => s
  }

  /** Concatenation of `parts`, left to right. */
  function Flatten(parts: seq<string>): string
  {
    if |parts| == 0 then "" else parts[0] + Flatten(parts[1..])
  }


  lemma {:induction false} FlattenLength(parts: seq<string>, k: nat)
    requires k < |parts|
    ensures |Flatten(parts)| >= |parts[k]|
    decreases |parts|
  {
    if k > 0 {
      FlattenLength(parts[1..], k - 1);
    }
  }

  /** `parts.join(sep)`. */
  function Join(parts: seq<string>, sep: string): string
  {
    if |parts| == 0 then ""
    else if |parts| == 1 then parts[0]
    else parts[0] + sep + Join(parts[1..], sep)
  }

  predicate NoDot(s: string)
  {
    forall i :: 0 <= i < |s| ==> s[i] != '.'
  }

  /** Every field of `s` between periods, empty fields included (never an empty list). */
  function SplitAll(s: string): (fields: seq<string>)
    ensures |fields| >= 1
    ensures forall i :: 0 <= i < |fields| ==> NoDot(fields[i])
    decreases |s|
  {
    if |s| == 0 then [""]
    else if s[0] == '.' then [""] + SplitAll(s[1..])
    else
      var rest := SplitAll(s[1..]);
      [[s[0]] + rest[0]] + rest[1..]
  }

  /** Drops the trailing empty fields, as Ruby's `split` does when no limit is given. */
  function StripTrailingEmpty(fields: seq<string>): (r: seq<string>)
    ensures |r| <= |fields| && r == fields[..|r|]
    ensures forall i :: |r| <= i < |fields| ==> fields[i] == ""
    ensures |r| > 0 ==> r[|r| - 1] != ""
  {
    if |fields| > 0 && fields[|fields| - 1] == "" then StripTrailingEmpty(fields[..|fields| - 1])
    else fields
  }

  /** Ruby's `s.split('.')`. */
  function RubySplit(s: string): (fields: seq<string>)
    ensures forall i :: 0 <= i < |fields| ==> NoDot(fields[i])
    ensures |fields| > 0 ==> fields[|fields| - 1] != ""
  {
    StripTrailingEmpty(SplitAll(s))
  }

  lemma {:induction false} JoinSplitAll(s: string)
    ensures Join(SplitAll(s), ".") == s
    decreases |s|
  {
    if |s| > 0 {
      var rest := SplitAll(s[1..]);
      JoinSplitAll(s[1..]);
      if s[0] == '.' {
        assert ([""] + rest)[1..] == rest;
      } else {
        JoinExtendFirst(s[0], rest);
        assert s == [s[0]] + s[1..];
      }
    }
  }

  /** Prepending a character to the first field prepends it to the joined string. */
  lemma JoinExtendFirst(c: char, fields: seq<string>)
    requires |fields| >= 1
    ensures Join([[c] + fields[0]] + fields[1..], ".") == [c] + Join(fields, ".")
  {
    if |fields| == 1 {
      assert [[c] + fields[0]] + fields[1..] == [[c] + fields[0]];
    } else {
      JoinExtendFirstOfMany(c, fields);
    }
  }

  lemma JoinExtendFirstOfMany(c: char, fields: seq<string>)
    requires |fields| >= 2
    ensures Join([[c] + fields[0]] + fields[1..], ".") == [c] + Join(fields, ".")
  {
    var longer := [[c] + fields[0]] + fields[1..];
    assert longer[1..] == fields[1..];
    assert Join(longer, ".") == [c] + fields[0] + "." + Join(fields[1..], ".");
    AppendAssoc([c], fields[0] + ".", Join(fields[1..], "."));
  }

  lemma AppendAssoc<T>(a: seq<T>, b: seq<T>, c: seq<T>)
    ensures a + b + c == a + (b + c)
  {
  }

  lemma {:induction false} SplitAllNoDot(s: string)
    requires NoDot(s)
    ensures SplitAll(s) == [s]
    decreases |s|
  {
    if |s| > 0 {
      SplitAllNoDot(s[1..]);
      assert s == [s[0]] + s[1..];
    }
  }

  lemma {:induction false} SplitAllAfterField(x: string, y: string)
    requires NoDot(x)
    ensures SplitAll(x + "." + y) == [x] + SplitAll(y)
    decreases |x|
  {
    var s := x + "." + y;
    if |x| == 0 {
      assert s[1..] == y;
    } else {
      assert s[1..] == x[1..] + "." + y;
      SplitAllAfterField(x[1..], y);
      assert x == [x[0]] + x[1..];
    }
  }

  /** Joining dot-free fields with periods and splitting again gives them back. */
  lemma {:induction false} SplitAllJoin(parts: seq<string>)
    requires |parts| >= 1
    requires forall i :: 0 <= i < |parts| ==> NoDot(parts[i])
    ensures SplitAll(Join(parts, ".")) == parts
    decreases |parts|
  {
    if |parts| == 1 {
      SplitAllNoDot(parts[0]);
    } else {
      SplitAllJoin(parts[1..]);
      SplitAllAfterField(parts[0], Join(parts[1..], "."));
      assert parts == [parts[0]] + parts[1..];
    }
  }

  /** `split('.')` inverts `join('.')` on dot-free fields whose last field is not empty. */
  lemma {:induction false} RubySplitJoin(parts: seq<string>)
    requires forall i :: 0 <= i < |parts| ==> NoDot(parts[i])
    requires |parts| > 0 ==> parts[|parts| - 1] != ""
    ensures RubySplit(Join(parts, ".")) == parts
  {
    if |parts| > 0 {
      SplitAllJoin(parts);
    }
  }

  /** `s` has at most one more field than characters. */
  lemma {:induction false} SplitAllAtMost(s: string)
    ensures |SplitAll(s)| <= |s| + 1
    decreases |s|
  {
    if |s| > 0 {
      SplitAllAtMost(s[1..]);
    }
  }

  /** Once some field is not empty, there are no more fields than characters. */
  lemma {:induction false} SplitAllWithNonEmptyField(s: string, k: nat)
    requires k < |SplitAll(s)| && SplitAll(s)[k] != ""
    ensures |SplitAll(s)| <= |s|
    decreases |s|
  {
    if |s| > 0 {
      var rest := SplitAll(s[1..]);
      if s[0] == '.' {
        assert SplitAll(s) == [""] + rest;
        SplitAllWithNonEmptyField(s[1..], k - 1);
      } else {
        SplitAllAtMost(s[1..]);
      }
    }
  }

  /** A string has at least as many characters as `split('.')` gives it segments. */
  lemma SegmentsAtMostLength(s: string)
    ensures |RubySplit(s)| <= |s|
  {
    var r := RubySplit(s);
    if |r| > 0 {
      SplitAllWithNonEmptyField(s, |r| - 1);
    }
  }

  // ----- decimal numerals -----------------------------------------------------

  predicate IsDigit(c: char)
  {
    '0' <= c <= '9'
  }

  function DigitChar(d: nat): char
    requires d < 10
  {
    "0123456789"[d]
  }

  function DigitValue(c: char): nat
    requires IsDigit(c)
  {
    (c as int - '0' as int) as nat
  }

  /** `Integer#to_s` for a non-negative integer: shortest decimal numeral. */
  function NatToString(n: nat): (s: string)
    ensures |s| >= 1
    ensures forall i :: 0 <= i < |s| ==> IsDigit(s[i])
    ensures |s| > 1 ==> s[0] != '0'
    decreases n
  {
    if n < 10 then [DigitChar(n)] else NatToString(n / 10) + [DigitChar(n % 10)]
  }

  /** The number a string of decimal digits denotes. */
  function DecimalValue(s: string): nat
    requires forall i :: 0 <= i < |s| ==> IsDigit(s[i])
  {
    if |s| == 0 then 0 else 10 * DecimalValue(s[..|s| - 1]) + DigitValue(s[|s| - 1])
  }

  lemma {:induction false} DecimalValueOfNatToString(n: nat)
    ensures DecimalValue(NatToString(n)) == n
    decreases n
  {
    var s := NatToString(n);
    if n >= 10 {
      DecimalValueOfNatToString(n / 10);
      assert s[..|s| - 1] == NatToString(n / 10);
    }
  }

  /** `n` in decimal, left-padded with zeros to at least `width` digits (strftime's `%0Nd`). */
  function ZeroPad(n: nat, width: nat): (s: string)
    ensures |s| == if |NatToString(n)| < width then width else |NatToString(n)|
    ensures forall i :: 0 <= i < |s| ==> IsDigit(s[i])
    ensures DecimalValue(s) == n
  {
    var digits := NatToString(n);
    var zeros := seq(if |digits| < width then width - |digits| else 0, _ => '0');
    DecimalValueOfNatToString(n);
    LeadingZeros(zeros, digits);
    zeros + digits
  }

  lemma {:induction false} LeadingZeros(zeros: string, digits: string)
    requires forall i :: 0 <= i < |zeros| ==> zeros[i] == '0'
    requires forall i :: 0 <= i < |digits| ==> IsDigit(digits[i])
    ensures DecimalValue(zeros + digits) == DecimalValue(digits)
    decreases |digits|
  {
    if |digits| == 0 {
      assert zeros + digits == zeros;
      AllZeros(zeros);
    } else {
      var s := zeros + digits;
      assert s[..|s| - 1] == zeros + digits[..|digits| - 1];
      LeadingZeros(zeros, digits[..|digits| - 1]);
    }
  }

  lemma {:induction false} AllZeros(zeros: string)
    requires forall i :: 0 <= i < |zeros| ==> zeros[i] == '0'
    ensures DecimalValue(zeros) == 0
    decreases |zeros|
  {
    if |zeros| > 0 {
      AllZeros(zeros[..|zeros| - 1]);
    }
  }

  // ----- UTF-8 byte size ------------------------------------------------------

  /** Bytes UTF-8 spends on one Unicode scalar value. */
  function CharBytes(c: char): nat
  {
    if c as int < 0x80 then 1
    else if c as int < 0x800 then 2
    else if c as int < 0x1_0000 then 3
    else 4
  }

  /** Ruby's `bytesize` of a UTF-8 string. */
  function Utf8Size(s: string): nat
  {
    if |s| == 0 then 0 else CharBytes(s[0]) + Utf8Size(s[1..])
  }

  /** Every character costs between one and four bytes; exactly one byte each iff all are ASCII. */
  lemma {:induction false} Utf8SizeBounds(s: string)
    ensures |s| <= Utf8Size(s) <= 4 * |s|
    ensures Utf8Size(s) == |s| <==> forall i :: 0 <= i < |s| ==> s[i] as int < 0x80
    decreases |s|
  {
    if |s| > 0 {
      Utf8SizeBounds(s[1..]);
      assert forall i :: 1 <= i < |s| ==> s[i] == s[1..][i - 1];
    }
  }

  lemma {:induction false} Utf8SizeUniform(c: char, n: nat)
    ensures Utf8Size(seq(n, _ => c)) == n * CharBytes(c)
    decreases n
  {
    if n > 0 {
      assert seq(n, _ => c)[1..] == seq(n - 1, _ => c);
      Utf8SizeUniform(c, n - 1);
    }
  }
}

=== FILE: types.dfy ===
/** Shared value types of the append-blob output plugin model. */
module Types {

  /** Ruby's `nil` versus a present value. */
  datatype Option<+T> = None | Some(value: T)

  /** The exceptions the plugin raises (or that its collaborators raise), one
      constructor per distinct failure the model can reach. */
  datatype Error =
    | MissingConfiguration   // `write` finds no onboarding configuration
    | NilSuffixSegments      // `tags[5..-1]` is nil, so `.each` raises
    | NilCustomType          // the url-suffix template adds a string to a nil custom type
    | NilSuffix              // the url-suffix template adds a nil suffix to a string
    | ResolutionFailed       // the control plane gives no usable blob URI
    | TransportFailed        // a storage request fails or is rejected
    | RoutingError           // a tag with too few segments (segment-count classifier only)

  datatype Result<+T> = Ok(value: T) | Err(error: Error)
}
